=== FILE: README.md ===
# Team shift scheduler — a Dafny model of `app.py`

`app.py` is a small Streamlit page that plans the working day of a
contact-centre team spread over four shifts (two in Toronto, two in Bogotá).
The manager enters a headcount per shift; the page then

1. **generates** one row per employee: shift name, `Employee i`, the
   shift's default start and end as `HH:MM`, the breaks (one per break slot,
   staggered over the slot with `numpy.linspace` and rounded to hundredths,
   each lasting half an hour, written `"HH:MM - HH:MM"` and joined by
   `", "`) and the lunch start (staggered over the lunch range and rounded
   to tenths);
2. draws an **adjustment page** with three sliders per row — start, end and
   lunch — whose initial values are read back from the row's texts and
   whose chosen values are written back; the lunch is rewritten as an
   interval of half an hour (Toronto) or an hour (Bogotá);
3. **projects** the adjusted table onto Gantt-chart bars: one shift bar per
   row, one bar per break, and one lunch bar when the lunch text is an
   interval.

The model keeps the table's texts as Dafny strings and hours as exact
reals, and it proves what each step promises. It also proves what the page
gets wrong (see Findings).

Modules, in dependency order:

- `Results` — `Option`, `Result` and the page's error kinds.
- `Text` — decimal digits, `:02d` padding, `float()` on a digit run,
  `str.split` / `str.join` and their round trip.
- `Clock` — `format_time`, intervals, and two readers of a time text:
  - `HourPart`: the script's `float(text.split(":")[0])`;
  - `ClockTime`: the corrected reader, which keeps the minutes.
- `Rounding` — numpy's round-half-even to tenths and hundredths.
- `Templates` — the shifts table, the lunch duration and slider bounds, and
  the well-formedness of each template.
- `Stagger` — `linspace`, then rounding.
- `Generate` — the rows of the schedule.
- `Adjust` — the sliders and the write-back.
- `Timeline` — the Gantt projection.
- `Pipeline` — generation, then adjustment, then the chart.
- `Findings` — the discrepancies, each shown on a concrete row.

The adjustment page and the lunch spread are each modelled twice: as
written, and corrected. `Pipeline.Run` takes the reader and the spread as
parameters, so both the script and the corrected page run through it; each
lemma about a run names the versions it holds for.

- `Adjust.AdjustRowWith` takes the reader as a parameter.
  - `AdjustRowAsWritten` is the script (the `HourPart` reader).
  - `AdjustRow` uses the `ClockTime` reader.
- `Stagger.LunchSpread` picks where lunch starts are spread.
  - `OverLunchRange` is the script: the whole lunch range.
  - `WithinLunchSlider` is the lunch slider's range.

`app.py` passes each slider an initial `value` read back from the row, and
that value can lie outside the slider's `min_value`/`max_value`. What the
slider widget does then is decided by Streamlit, outside `app.py`, so the
model takes it as a parameter, `Adjust.Widget`:

- `Refuse`: the widget raises an error and the page stops.
- `Widen`: the widget stretches its range to take in the value (first
  putting `min_value` no higher than `max_value`).

Every property below says which of the two it holds for. Most hold for
both. Where the two differ, both outcomes are proved.

## Model

| member | source | states |
|---|---|---|
| Templates.LookupFinds | app.py:8-13 | looking a shift name up finds a template of the table exactly when some template carries that name |
| Templates.LookupFindsEachShift | app.py:8-13 | each of the four shift names finds its own template (the names are distinct) |
| Templates.LunchDurationOfShifts | app.py:72 | the lunch lasts half an hour on both Toronto shifts and an hour on both Bogotá shifts |
| Templates.ShiftsWellFormed | app.py:8-13 | every template's default hours lie in its adjustable range at least an hour apart, on whole minutes, with the default start offered by the start slider; its break slots and lunch range lie inside the default hours, on the grid their starts are rounded to; its lunch slider range is not empty |
| Templates.LookupWellFormed | app.py:8-13 | whatever template a name finds is well formed |
| Clock.Trunc | app.py:24-25 | `int()` of a float truncates toward zero: the result is the whole number at or below a non-negative argument and at or above a negative one, less than one away |
| Clock.FormatTimeShape | app.py:23-26 | a time below 100 hours renders as five characters `HH:MM`, whose hour digits are the whole hours, whose minute digits are below 60, and whose hours times 60 plus minutes count the whole minutes in the time |
| Clock.FormatTimeHasNoSeparator | app.py:23-26 | a rendered time contains neither a space nor a comma, so the `", "` and `" - "` splits of the chart leave it whole |
| Clock.ReadHourOfFormatTime | app.py:65 | the script's read-back (`float` of the text before the first colon) of a rendered time, or of an interval, is the truncated hour only |
| Clock.ReadStartOfFormatTime | app.py:65 | the corrected read-back of a rendered time, or of an interval starting there, is the time cut down to whole minutes |
| Clock.ReadBackRoundTrip | app.py:65 | a value the reader can produce (whole hours for the script, whole minutes for the corrected reader) is read back unchanged from its rendering and from an interval starting there |
| Clock.SeenAsClockBetween | app.py:65 | cutting a time down to whole minutes never goes below a whole-minute value under it |
| Text.DigitsValueOfNatToString | app.py:26 | the decimal digits of a number denote that number |
| Text.NatToStringInjective | app.py:26 | different numbers have different decimal renderings |
| Text.Pad2 | app.py:26 | `:02d` gives at least two characters, exactly two for 0 to 99, all digits for a non-negative number |
| Text.Pad2Reads | app.py:26 | `float` of a `:02d` rendering gives the number back |
| Text.ParseInteger | app.py:65 | `float` of a non-empty run of digits is the number the digits denote; an empty text is not a number |
| Text.Split | app.py:98-99 | `str.split` yields at least one piece, no piece contains the separator, and joining the pieces with the separator gives the text back |
| Text.SplitLeftmost | app.py:98-99 | `str.split` cuts at the leftmost occurrence each time: after every piece but the last, the first occurrence of the separator in the rest of the text is exactly where that piece ends |
| Text.SplitUnique | app.py:98-99 | pieces that join back to the text, hold no separator and are cut leftmost are exactly what `str.split` returns, so the split of every text is pinned, overlapping separators included |
| Text.SplitJoin | app.py:46-48 | splitting a join gives the pieces back, when no piece contains the separator's first character |
| Text.IndexFrom | app.py:72 | the first match found is a match, with none before it; when none is found, there is none at all |
| Rounding.RoundHalfEven | app.py:40 | the rounded integer is within half of its argument, and an exact half goes to the even neighbour |
| Rounding.RoundTo | app.py:40-43 | `round(x, 2)` / `round(x, 1)` lands on the grid of hundredths / tenths within half a grid step of `x` |
| Rounding.RoundToMonotone | app.py:40-43 | rounding never reverses the order of two values |
| Rounding.RoundToFixesGrid | app.py:40-43 | rounding leaves a value already on the grid unchanged |
| Rounding.RoundToBetweenGridPoints | app.py:40-43 | a value between two grid points rounds to a value between them |
| Rounding.TenthsAreWholeMinutes | app.py:43 | a lunch start rounded to tenths of an hour is a whole number of minutes |
| Stagger.Linspace | app.py:39-42 | `linspace(a, b, n)` has `n` points, the first `a` and the last `b` |
| Stagger.LinspaceEvenlySpaced | app.py:39-42 | for `n >= 2` every two neighbouring points are `(b - a) / (n - 1)` apart, the last pair included: the points are evenly spaced |
| Stagger.LinspaceMonotone | app.py:39-42 | for `a <= b` the points lie between `a` and `b` and never decrease |
| Stagger.StaggerStarts | app.py:38-43 | `n` employees get `n` starts, each on the rounding grid and within half a grid step of its evenly spaced `linspace` point |
| Stagger.StaggerShape | app.py:38-43 | the rounded starts of a window whose ends lie on the grid begin at its start, end at its end when there are two or more, never decrease and stay inside the window |
| Generate.EmployeeLabelInjective | app.py:48 | different employees of a shift get different `Employee i` labels |
| Generate.GenerateShift | app.py:45-48 | a shift with `n` employees yields `n` rows, row `i` of that shift labelled `Employee i+1` and showing the shift's default start and end |
| Generate.GenerateFor | app.py:29-48 | the table has as many rows as the headcounts add up to |
| Generate.GenerateOrder | app.py:31-48 | the table lists the shifts in order, each shift's employees in order: employee `i` of shift `k` is the row after all rows of the earlier shifts, plus `i` |
| Generate.IntervalsRoundTrip | app.py:97-99 | splitting the joined breaks on `", "` gives the pieces back, and each piece splits on `" - "` into its start and end |
| Generate.BreaksRoundTrip | app.py:97-99 | the Breaks text of a generated row splits into one piece per break slot, and piece `j` splits into the rendered start and end of that employee's break in slot `j` |
| Generate.GeneratedStaggering | app.py:38-43 | break starts begin at their slot's start, end at its end and never decrease; lunch starts behave the same over their window; every lunch start lies within the shift's default hours |
| Generate.GeneratedLunchFitsSlider | app.py:42-43 | spread over the lunch slider's range, every lunch start lies within the slider's bounds |
| Generate.GeneratedLunchOverrunsSlider | app.py:42-43 | spread over the whole lunch range as written, the last of two or more lunch starts is the range's end, past the slider's top |
| Adjust.Offered | app.py:64-77 | the range a slider offers: its own range when the widget refuses or the initial value already lies in it; when the widget widens, a range that holds the initial value and, if the range was not empty, the whole of it, with ends taken from the range and the value |
| Adjust.Slide | app.py:64-77 | a slider accepts exactly when (for a refusing widget) its initial value lies in its range and any pick lies in the range offered; a refusal is the out-of-range error; an accepted slider settles on the pick, or on the initial value when untouched, inside the range offered and, for a refusing widget, inside its own range |
| Adjust.SliderStep | app.py:64-77 | the same for a slider whose initial value is read back from the row's text: a text that cannot be read is not a number; otherwise the slider accepts, refuses and settles as a slider drawn at the value read back |
| Adjust.Choose | app.py:64-77 | the three sliders settle on the picks, or on the values read back from the row when untouched; with a refusing widget, the start lies in the start slider's range, the end lies from an hour after the start as written and read back up to the top of the adjustable range, and the lunch lies in the lunch slider's range |
| Adjust.AdjustRowWith | app.py:58-78 | an unknown shift stops the page; an adjusted row keeps its shift, employee and breaks |
| Adjust.AdjustTable | app.py:58-78 | the page accepts the table exactly when it accepts every row, each row adjusted on its own with its own picks; a refusal is the error of the first row refused, all rows before it accepted |
| Adjust.PicksWritten | app.py:64-78 | every moved slider's pick is what the row now shows, and a moved lunch becomes the interval of the shift's lunch duration from the pick; with a refusing widget each pick lies in its slider's range, the end's bottom being an hour after the start the row now shows, as read back |
| Adjust.PicksOffered | app.py:64-77 | with a widening widget each pick lies in the range its slider offers once stretched to the value read back, the end slider's range starting an hour after the start the row now shows |
| Adjust.OutOfRangePickRejected | app.py:64-77 | for either widget, once the shift is known and the texts can be read, a pick outside the range its slider offers is refused: a start, an end below an hour after the start just settled (as read back) or above the top, or a lunch. Such a pick is a value the real slider can never return, so the page has no branch for it; the error is how the model rules these inputs out |
| Adjust.LunchOutOfRangeRefused | app.py:71-77 | with a refusing widget, a lunch text that reads back outside the lunch slider's range stops the row, whatever the picks |
| Adjust.ChooseFailsOnlyOutOfRange | app.py:64-77 | when the row's texts can be read, the only way the sliders fail is a value out of range |
| Adjust.AdjustRowIdempotent | app.py:58-78 | with the corrected reader, adjusting a row the page has written, with the same picks, gives the same row back; for a widening widget this needs picks on whole minutes, as the half-hour step keeps them |
| Adjust.AdjustedShiftLastsAnHour | app.py:68 | with the corrected reader and a refusing widget, every adjusted shift ends at least an hour after it starts |
| Adjust.AsWrittenEndHourAfterStartHour | app.py:68 | as written, with a refusing widget, the only guarantee is that the end's hour is at least one more than the start's hour |
| Adjust.UntouchedRowKeepsTimes | app.py:64-77 | with the corrected reader and either widget, a row nobody touches keeps its start, end and lunch start |
| Adjust.GeneratedRowAdjustsUntouched | app.py:58-78 | with either widget, every row generated with lunch starts spread over the lunch slider's range passes the corrected page untouched, only its lunch rewritten as an interval of the shift's lunch duration |
| Timeline.BreakEntries | app.py:97-106 | the break bars are accepted exactly when every piece splits on `" - "` into two texts; then there is one bar per piece, from its first to its second text; otherwise the page fails |
| Timeline.RowBreaks | app.py:97-106 | an empty Breaks text gives no break bar; every break bar carries the row's label |
| Timeline.RowLunch | app.py:108-120 | at most one lunch bar, present exactly when the Lunch text contains `" - "` and splits into two texts |
| Timeline.RowEntries | app.py:86-118 | a row's bars are its shift bar first, from its start to its end text, then exactly its break bars followed by its lunch bar; only a malformed break stops the page |
| Timeline.RowWorkTasks | app.py:86-118 | a row contributes exactly one shift bar, labelled `"<employee> (<shift>)"` |
| Timeline.Project | app.py:85-118 | the chart data exists exactly when every row's breaks are well formed; its shift bars are the rows' labels in table order |
| Timeline.ProjectFlattens | app.py:85-118 | when every row charts, the chart data is every row's bars and nothing else, row after row in table order: each row's shift bar, then its break bars, then its lunch bar |
| Timeline.SameLabels | app.py:89 | tables with the same employees and shifts row by row have the same labels |
| Timeline.LunchOfInterval | app.py:108-118 | a lunch written back as an interval gives one lunch bar from its start to its end |
| Timeline.LunchOfClockText | app.py:108-109 | a lunch still shown as a single clock text gives no lunch bar |
| Timeline.IntervalBreaks | app.py:97-106 | the breaks written at generation chart as one bar per break, from its rendered start to half an hour later |
| Timeline.GeneratedRowEntries | app.py:86-106 | a generated row charts as its shift bar followed by one break bar per break slot, at that employee's staggered break times |
| Pipeline.Run | app.py:29-118 | for either reader, either lunch spread and either widget: a chart is drawn exactly when the page accepts the generated table and every adjusted row's breaks are well formed; the chart is then every bar of every adjusted row in table order, its shift bars are the adjusted rows' labels, and otherwise the error is the page's or a malformed break |
| Pipeline.AdjustTableIdempotent | app.py:58-78 | with the corrected reader, a second pass of the page over the table it wrote, with the same picks, changes nothing; for a widening widget this needs picks on whole minutes |
| Pipeline.GeneratedRowsChart | app.py:29-118 | with lunch starts spread over the lunch slider's range, the corrected reader and either widget, every generated row passes the page untouched, keeps its times and charts with one lunch bar |
| Pipeline.UntouchedRunCharts | app.py:29-118 | with lunch starts spread over the lunch slider's range, the corrected reader and either widget, for any headcounts and no slider touched, the page accepts the generated table and the chart has one shift bar per employee, in table order |
| Findings.AsWrittenUntouchedDropsMinutes | app.py:65 | as written, with either widget, an untouched Bogotá 8:30 AM row is written back starting at `08:00` |
| Findings.CorrectedUntouchedKeepsMinutes | app.py:65 | with the corrected reader and either widget, the same row keeps `08:30` and only gains its lunch interval |
| Findings.AsWrittenFirstTorontoLunch | app.py:71-77 | as written, the first Toronto 8 AM lunch (11:30) reads back as 11, below the lunch slider's bottom 11.5; a refusing widget then stops the page at that row, and a widening one moves the untouched lunch to 11:00 - 11:30 |
| Findings.AsWrittenRunStops | app.py:29-118 | the whole script as written (its reader and its lunch spread) with a refusing widget draws no chart once anyone works the Toronto 8 AM shift, whatever the picks: the page stops with an out-of-range error |
| Findings.AsWrittenRejectsFirstTorontoLunch | app.py:71-77 | as written, with a refusing widget, the page refuses the first Toronto 8 AM row whatever the picks |
| Findings.AsWrittenAcceptsHalfHourShift | app.py:68 | as written, with either widget, a start of 8:30 and an end of 9:00 are accepted |
| Findings.CorrectedRejectsHalfHourShift | app.py:68 | with the corrected reader and either widget, the same picks are refused |
| Findings.AsWrittenLastTorontoLunch | app.py:42-43 | as written, the last of two or more Toronto 8 AM lunches starts at 13:00, reads back as 13, above the lunch slider's top 12.5; a refusing widget then stops the page at that row, and a widening one keeps the lunch at 13:00 - 13:30, past the lunch range |
| Findings.OverRangeLastLunchRejectedInTable | app.py:42-43 | with lunch starts spread over the whole lunch range as written, the last employee of any shift with two or more employees gets a lunch past the lunch slider's top, and even the corrected reader with a refusing widget refuses that row whatever the picks |
| Findings.LastLunchOverruns | app.py:42-43 | that last lunch start is read back as the lunch range's end, above the slider's top |

Definitions that only compute carry no row of their own. The member
whose contract states what each one means:

- `Clock.FormatTime` (app.py:23-26): `Clock.FormatTimeShape`.
- `Clock.Interval` (app.py:46 and app.py:78): `Generate.IntervalsRoundTrip` and `Timeline.LunchOfInterval`.
- `Clock.ReadHour` (app.py:65-71): `Clock.ReadHourOfFormatTime`.
- `Templates.Lookup` (app.py:59): `Templates.LookupFinds`.
- `Templates.LunchDuration` (app.py:72): `Templates.LunchDurationOfShifts`.
- `Templates.StartBounds` and `Templates.LunchBounds` (app.py:60-75): `Adjust.Choose` and `Adjust.PicksWritten`.
- `Adjust.EndBounds` (app.py:68): `Adjust.Choose`, `Adjust.PicksWritten` and `Adjust.AdjustedShiftLastsAnHour`.
- `Adjust.LunchText` (app.py:78): `Adjust.PicksWritten`.
- `Adjust.AdjustRowAsWritten` and `Adjust.AdjustRow` (app.py:58-78): `Adjust.AdjustRowWith` with the script's and the corrected reader.
- `Generate.BreakEnd` (app.py:46): `Timeline.IntervalBreaks`.
- `Generate.EmployeeRow` (app.py:45-48): `Generate.GenerateShift` and `Generate.BreaksRoundTrip`.
- `Generate.Intervals` (app.py:46): `Generate.IntervalsRoundTrip`.
- `Generate.GenerateAll` (app.py:29-48): `Generate.GenerateFor` and `Generate.GenerateOrder`.
- `Timeline.TaskLabel` (app.py:89): `Timeline.RowWorkTasks` and `Timeline.SameLabels`.
- `Timeline.RowBars` (app.py:86-118): `Timeline.ProjectFlattens`.
- `Pipeline.Adjusted` (app.py:29-78): `Pipeline.Run`.

## Left out

- The Streamlit widgets, the sidebar and `st.session_state` are left out: the headcounts and the slider picks are inputs.
- What a slider does with an initial value outside its range is decided by Streamlit, outside `app.py`. The model takes it as the `Widget` parameter and covers both a refusing and a widening widget.
- `pandas` and `plotly` are left out: the chart data is a sequence of `Timeline.Entry` bars, and the chart itself is not drawn (lines 122 onward).
- `datetime.strptime` is left out: bars keep the clock texts they would parse. The script's `strptime` raises an uncaught `ValueError` on a text that is not `%H:%M`, for the shift bar (lines 90-91) and for a break bar (lines 102-103). For the lunch bar (lines 114-115) it is caught and the bar is skipped with a warning. The model draws a bar for any text that splits.
- Adjust.Slide: accepts any pick inside the range offered. A pick outside that range is one the real slider cannot return; the model answers it with `OutOfRange` only to exclude such inputs, not because the page does so. It does not model the 0.5-hour step, because the step constrains only what the widget offers, not what the page does with a value.
- Adjust.AdjustedShiftLastsAnHour: stated for a refusing widget only. A widening widget stretches the end slider down to the end read back, so an end less than an hour after the start is kept.
- Adjust.AsWrittenEndHourAfterStartHour: stated for a refusing widget only, for the same reason.
- Adjust.AdjustRowIdempotent: for a widening widget it needs picks on whole minutes. A pick off the minute is written back cut down to the minute. If the pick lay beyond the slider's own range, admitted only because the range was stretched to the old value, the range stretched to the cut-down value no longer holds it.
- Pipeline.AdjustTableIdempotent: the same requirement, row by row.
- Findings.OverRangeLastLunchRejectedInTable: stated for a refusing widget. With a widening widget the same row is accepted and its lunch runs past the lunch range; `Findings.AsWrittenLastTorontoLunch` shows that outcome on the Toronto 8 AM shift.
- Floating-point error is left out: hours are exact reals, and numpy's round-half-even is modelled exactly on them.
- Text.ParseInteger: models Python's `float()` only on an optionally signed run of decimal digits, the only texts `format_time` produces. Other spellings `float()` accepts (spaces, decimals, exponents) are not modelled.
- Timeline.RowLunch: a Lunch text that contains `" - "` but does not split into two texts gets no bar. The `st.warning` shown in that case (lines 119-120) is not modelled.
- A shift name outside the table is refused with the `UnknownShift` error. The script raises `KeyError` there (line 59).
- A time text `float()` cannot read is refused with the `NotANumber` error. The script raises `ValueError` there.

## Findings

| source | as written | input that shows it | evidently intended | confidence | as-written member | corrected member |
|---|---|---|---|---|---|---|
| app.py:65 | each slider's initial value is `float(text.split(":")[0])`, the hour alone, so minutes are dropped on every pass | an untouched row of `Bogotá (8:30 AM - 6 PM)` is written back with start `08:00` | an untouched slider keeps the time the row shows (`08:30`) | not executed | Findings.AsWrittenUntouchedDropsMinutes | Findings.CorrectedUntouchedKeepsMinutes |
| app.py:71-77 | the lunch slider's initial value is the lunch's hour alone | `Toronto (8 AM - 4 PM)` with one or more employees: the first lunch `11:30` reads as 11, below the slider's bottom 11.5; a refusing widget stops the page at that row, a widening one moves the untouched lunch to 11:00 - 11:30 | the slider starts at the generated 11:30 | not executed | Findings.AsWrittenFirstTorontoLunch | Adjust.GeneratedRowAdjustsUntouched |
| app.py:68 | the end slider's bottom is the start's hour plus one | on `Bogotá (8:30 AM - 6 PM)`, a start pick of 8.5 and an end pick of 9.0 are accepted: a half-hour shift | a shift ends at least an hour after its start | not executed | Findings.AsWrittenAcceptsHalfHourShift | Adjust.AdjustedShiftLastsAnHour |
| app.py:42-43 | lunch starts are spread over the whole `lunch_range`, but the lunch slider (line 75) stops at `lunch_end - lunch_duration` | two employees on `Toronto (8 AM - 4 PM)`: the second lunch starts at 13.0, above the slider's top 12.5; a refusing widget stops the page at that row, a widening one keeps the lunch at 13:00 - 13:30, past the lunch range | lunch starts spread over the slider's range | not executed | Findings.AsWrittenLastTorontoLunch | Generate.GeneratedLunchFitsSlider |

=== FILE: adjust.dfy ===
/** The "Adjust Shifts, Breaks & Lunch Live" step. For every row the page
    draws three sliders: the start (over the template's adjustable range
    less an hour), the end (from an hour after the start just written back
    to the end of the adjustable range) and the lunch start (over the lunch
    range less the lunch duration). Each slider's initial value is read back
    from the row's text; the chosen values are written back as clock texts,
    the lunch as an interval of the shift's lunch duration.

    Two things are parameters:
    - the reader: `HourPart` is the script as written, which keeps only the
      hour before the first colon; `ClockTime` is the corrected reader that
      keeps the minutes;
    - the widget's response to an initial value outside the slider's range,
      which the script leaves to the slider widget: `Refuse` or `Widen`.
 */
module Adjust {
  import opened Results
  import opened Text
  import opened Clock
  import opened Rounding
  import opened Templates
  import opened Stagger
  import opened Generate

  /** What the user did with a row's three sliders; `None` leaves a slider
      at the initial value the page gave it. */
  datatype Picks = Picks(start: Option<real>, end: Option<real>, lunch: Option<real>)

  const Untouched := Picks(None, None, None)

  /** Every value the user picked is a whole number of minutes, as every
      value of a slider with a half-hour step is. */
  predicate OnTheMinute(picks: Picks)
  {
    && (picks.start.Some? ==> Readable(ClockTime, picks.start.value))
    && (picks.end.Some? ==> Readable(ClockTime, picks.end.value))
    && (picks.lunch.Some? ==> Readable(ClockTime, picks.lunch.value))
  }

  /** What the slider widget does when the page draws it with an initial
      value outside `[min_value, max_value]`: raise an error, which stops
      the page, or stretch its range to take the value in. */
  datatype Widget = Refuse | Widen

  /** The range a slider over `b` offers when drawn with initial value
      `current`. A refusing widget offers `b`. A widening one collapses a
      range whose bottom lies above its top onto that top, then stretches
      it to take in `current`. */
  function Offered(w: Widget, b: Window, current: real): (o: Window)
    ensures w.Refuse? || b.lo <= current <= b.hi ==> o == b
    ensures w.Widen? ==> o.lo <= current <= o.hi
    ensures w.Widen? && b.lo <= b.hi ==> o.lo <= b.lo && b.hi <= o.hi
    ensures w.Widen? ==> o.lo == current || o.lo == b.lo || o.lo == b.hi
    ensures w.Widen? ==> o.hi == current || o.hi == b.hi
  {
    match w
    case Refuse => b
    case Widen =>
      var lo := if b.lo <= b.hi then b.lo else b.hi;
      Window(if current < lo then current else lo, if b.hi < current then current else b.hi)
  }

  /** The value a slider settles on: the pick if the user moved it, the
      initial value otherwise. */
  function SettledOn(pick: Option<real>, current: real): real
  {
    if pick.Some? then pick.value else current
  }

  /** A slider over `b` drawn with initial value `current`. A refusing
      widget stops the page on an initial value outside `b`. Otherwise the
      slider settles on the user's pick, which it keeps inside the range it
      offers, or on the initial value if untouched. */
  function Slide(w: Widget, b: Window, current: real, pick: Option<real>): (r: Result<real>)
    ensures r.Ok? <==> && (w.Refuse? ==> b.lo <= current <= b.hi)
                       && (pick.Some? ==> Offered(w, b, current).lo <= pick.value <= Offered(w, b, current).hi)
    ensures r.Err? ==> r.error == OutOfRange
    ensures r.Ok? ==> r.value == SettledOn(pick, current)
    ensures r.Ok? ==> Offered(w, b, current).lo <= r.value <= Offered(w, b, current).hi
    ensures r.Ok? && w.Refuse? ==> b.lo <= r.value <= b.hi
  {
    if w.Refuse? && !(b.lo <= current <= b.hi) then Err(OutOfRange)
    else match pick
      case None => Ok(current)
      case Some(v) =>
        var o := Offered(w, b, current);
        if o.lo <= v <= o.hi then Ok(v) else Err(OutOfRange)
  }

  /** The end slider's range: from an hour after the start as read back, to
      the end of the adjustable range. */
  function EndBounds(t: Template, startRead: real): Window
  {
    Window(startRead + 1.0, t.adjustable.hi)
  }

  /** One slider drawn for a time field: its initial value is read back
      from the field's text (`float` fails on a text it cannot read), then
      the widget settles. */
  function SliderStep(reader: Reader, w: Widget, text: string, b: Window, pick: Option<real>): (r: Result<real>)
    ensures ReadBack(reader, text).None? ==> r == Err(NotANumber)
    ensures ReadBack(reader, text).Some? ==>
              (r.Ok? <==> && (w.Refuse? ==> b.lo <= ReadBack(reader, text).value <= b.hi)
                          && (pick.Some? ==> && Offered(w, b, ReadBack(reader, text).value).lo <= pick.value
                                             && pick.value <= Offered(w, b, ReadBack(reader, text).value).hi))
    ensures ReadBack(reader, text).Some? && r.Err? ==> r.error == OutOfRange
    ensures r.Ok? ==> && ReadBack(reader, text).Some?
                      && r.value == SettledOn(pick, ReadBack(reader, text).value)
    ensures r.Ok? ==> && Offered(w, b, ReadBack(reader, text).value).lo <= r.value
                      && r.value <= Offered(w, b, ReadBack(reader, text).value).hi
    ensures r.Ok? && w.Refuse? ==> b.lo <= r.value <= b.hi
  {
    var current :- ReadBack(reader, text).ToResult(NotANumber);
    Slide(w, b, current, pick)
  }

  /** The values the three sliders settle on. */
  datatype Choice = Choice(start: real, end: real, lunch: real)

  /** The three sliders of one row of shift `t`, in the order the page draws
      them; the end slider's bottom is an hour after the start written just
      before it, as read back again. Each slider settles on its pick or on
      the value read back from the row; with a refusing widget every value
      lies in its slider's range. */
  function Choose(reader: Reader, w: Widget, t: Template, row: Row, picks: Picks): (r: Result<Choice>)
    ensures r.Ok? ==> && ReadBack(reader, row.startTime).Some? && ReadBack(reader, row.endTime).Some?
                      && ReadBack(reader, row.lunch).Some? && ReadBack(reader, FormatTime(r.value.start)).Some?
    ensures r.Ok? ==> && r.value.start == SettledOn(picks.start, ReadBack(reader, row.startTime).value)
                      && r.value.end == SettledOn(picks.end, ReadBack(reader, row.endTime).value)
                      && r.value.lunch == SettledOn(picks.lunch, ReadBack(reader, row.lunch).value)
    ensures r.Ok? && w.Refuse? ==> StartBounds(t).lo <= r.value.start <= StartBounds(t).hi
    ensures r.Ok? && w.Refuse? ==> && ReadBack(reader, FormatTime(r.value.start)).value + 1.0 <= r.value.end
                                   && r.value.end <= t.adjustable.hi
    ensures r.Ok? && w.Refuse? ==> LunchBounds(t).lo <= r.value.lunch <= LunchBounds(t).hi
  {
    var start :- SliderStep(reader, w, row.startTime, StartBounds(t), picks.start);
    var startRead :- ReadBack(reader, FormatTime(start)).ToResult(NotANumber);
    var end :- SliderStep(reader, w, row.endTime, EndBounds(t, startRead), picks.end);
    var lunch :- SliderStep(reader, w, row.lunch, LunchBounds(t), picks.lunch);
    Ok(Choice(start, end, lunch))
  }

  /** The row with the chosen values written back. */
  function Apply(row: Row, c: Choice): Row
  {
    Written(row, FormatTime(c.start), FormatTime(c.end), LunchText(row.shift, c.lunch))
  }

  /** The lunch text the page writes for a lunch starting at `start`: an
      interval as long as the shift's lunch. */
  function LunchText(shift: string, start: real): string
  {
    Interval(start, start + LunchDuration(shift))
  }

  /** A lunch text is the interval from its start to its end. */
  lemma LunchTextInterval(shift: string, start: real)
    ensures LunchText(shift, start) == Interval(start, start + LunchDuration(shift))
  {
  }

  /** A row with its three slider texts replaced. */
  function Written(row: Row, start: string, end: string, lunch: string): (r: Row)
    ensures r.startTime == start && r.endTime == end && r.lunch == lunch
    ensures r.shift == row.shift && r.employee == row.employee && r.breaks == row.breaks
  {
    row.(startTime := start, endTime := end, lunch := lunch)
  }

  /** One row through the adjustment page. */
  function AdjustRowWith(reader: Reader, w: Widget, row: Row, picks: Picks): (r: Result<Row>)
    ensures Lookup(row.shift).None? ==> r == Err(UnknownShift)
    ensures r.Ok? ==> && r.value.shift == row.shift && r.value.employee == row.employee
                      && r.value.breaks == row.breaks
  {
    var t :- Lookup(row.shift).ToResult(UnknownShift);
    var c :- Choose(reader, w, t, row, picks);
    Ok(Apply(row, c))
  }

  /** The page as written: times are read back by their hour part only. */
  function AdjustRowAsWritten(w: Widget, row: Row, picks: Picks): Result<Row>
  {
    AdjustRowWith(HourPart, w, row, picks)
  }

  /** The page with the corrected reader, which keeps the minutes. */
  function AdjustRow(w: Widget, row: Row, picks: Picks): Result<Row>
  {
    AdjustRowWith(ClockTime, w, row, picks)
  }

  /** The picks for row `i`; rows beyond the given picks are untouched. */
  function PicksFor(picks: seq<Picks>, i: nat): Picks
  {
    if i < |picks| then picks[i] else Untouched
  }

  /** The whole table through the adjustment page, row after row; the first
      row the page cannot draw stops it. Each row depends only on itself and
      its own picks: an edit never moves another employee's times. */
  function AdjustTable(reader: Reader, w: Widget, rows: seq<Row>, picks: seq<Picks>): (r: Result<seq<Row>>)
    ensures r.Ok? <==> forall i :: 0 <= i < |rows| ==> AdjustRowWith(reader, w, rows[i], PicksFor(picks, i)).Ok?
    ensures r.Ok? ==> |r.value| == |rows|
    ensures r.Ok? ==> forall i :: 0 <= i < |rows| ==>
              r.value[i] == AdjustRowWith(reader, w, rows[i], PicksFor(picks, i)).value
    ensures r.Err? ==> exists i :: && 0 <= i < |rows|
                                   && AdjustRowWith(reader, w, rows[i], PicksFor(picks, i)) == Err(r.error)
                                   && forall j :: 0 <= j < i ==> AdjustRowWith(reader, w, rows[j], PicksFor(picks, j)).Ok?
  {
    var steps := seq(|rows|, i requires 0 <= i < |rows| => AdjustRowWith(reader, w, rows[i], PicksFor(picks, i)));
    var r := AllOk(steps);
    assert r.Ok? ==> forall i :: 0 <= i < |rows| ==> AdjustRowWith(reader, w, rows[i], PicksFor(picks, i)).Ok? by {
      if r.Ok? {
        forall i | 0 <= i < |rows|
          ensures AdjustRowWith(reader, w, rows[i], PicksFor(picks, i)).Ok?
        {
          assert steps[i].Ok?;
        }
      }
    }
    assert r.Err? ==> exists i :: && 0 <= i < |rows|
                                  && AdjustRowWith(reader, w, rows[i], PicksFor(picks, i)) == Err(r.error)
                                  && forall j :: 0 <= j < i ==> AdjustRowWith(reader, w, rows[j], PicksFor(picks, j)).Ok? by {
      if r.Err? {
        var i :| 0 <= i < |steps| && steps[i] == Err(r.error) && forall j :: 0 <= j < i ==> steps[j].Ok?;
        assert AdjustRowWith(reader, w, rows[i], PicksFor(picks, i)) == Err(r.error);
        forall j | 0 <= j < i
          ensures AdjustRowWith(reader, w, rows[j], PicksFor(picks, j)).Ok?
        {
          assert steps[j].Ok?;
        }
      }
    }
    r
  }

  /** The bottom of the start slider is a whole number of minutes. */
  lemma StartBottomReadable(t: Template)
    requires WellFormed(t)
    ensures Readable(ClockTime, StartBounds(t).lo)
  {
  }

  /** The bottom of the lunch slider is a whole number of minutes. */
  lemma LunchBottomReadable(t: Template)
    requires WellFormed(t)
    ensures Readable(ClockTime, LunchBounds(t).lo)
  {
    TenthsAreWholeMinutes(t.lunchRange.lo);
  }

  /** An hour after a whole-minute start is a whole number of minutes. */
  lemma EndBottomReadable(t: Template, sr: real)
    requires Readable(ClockTime, sr)
    ensures Readable(ClockTime, EndBounds(t, sr).lo)
  {
    var k := (sr * 60.0).Floor;
    assert sr * 60.0 == k as real;
    assert (sr + 1.0) * 60.0 == (k + 60) as real;
  }

  /** With the corrected reader, a slider that settled on `v` over a text
      settles on `v` again over a text that reads as `v` in whole minutes,
      provided the slider's bottom is a whole number of minutes and, for a
      widening widget, a pick is too. */
  lemma StepAgain(w: Widget, text: string, text2: string, b: Window, pick: Option<real>, v: real)
    requires SliderStep(ClockTime, w, text, b, pick) == Ok(v)
    requires Readable(ClockTime, b.lo)
    requires w.Widen? && pick.Some? ==> Readable(ClockTime, pick.value)
    requires ReadBack(ClockTime, text2) == Some(SeenAs(ClockTime, v))
    ensures SliderStep(ClockTime, w, text2, b, pick) == Ok(v)
  {
    if pick.None? {
      ReadBackIsReadable(ClockTime, text);
      SeenAsFixesReadable(ClockTime, v);
    } else if w.Refuse? {
      SeenAsClockBetween(b.lo, v);
    } else {
      SeenAsFixesReadable(ClockTime, v);
    }
  }

  /** The start slider drawn again over the start it wrote. */
  lemma StartAgain(w: Widget, t: Template, text: string, pick: Option<real>, v: real)
    requires WellFormed(t) && SliderStep(ClockTime, w, text, StartBounds(t), pick) == Ok(v)
    requires w.Widen? && pick.Some? ==> Readable(ClockTime, pick.value)
    ensures SliderStep(ClockTime, w, FormatTime(v), StartBounds(t), pick) == Ok(v)
  {
    StartBottomReadable(t);
    ReadBackIsReadable(ClockTime, text);
    ReadBackOfFormatTime(ClockTime, v, 0.0);
    StepAgain(w, text, FormatTime(v), StartBounds(t), pick, v);
  }

  /** The end slider, whose bottom is a whole number of minutes, drawn again
      over the end it wrote. */
  lemma EndAgain(w: Widget, t: Template, text: string, pick: Option<real>, startRead: real, v: real)
    requires Readable(ClockTime, startRead)
    requires SliderStep(ClockTime, w, text, EndBounds(t, startRead), pick) == Ok(v)
    requires w.Widen? && pick.Some? ==> Readable(ClockTime, pick.value)
    ensures SliderStep(ClockTime, w, FormatTime(v), EndBounds(t, startRead), pick) == Ok(v)
  {
    EndBottomReadable(t, startRead);
    ReadBackIsReadable(ClockTime, text);
    ReadBackOfFormatTime(ClockTime, v, 0.0);
    StepAgain(w, text, FormatTime(v), EndBounds(t, startRead), pick, v);
  }

  /** The lunch slider drawn again over the interval it wrote. */
  lemma LunchAgain(w: Widget, t: Template, text: string, pick: Option<real>, l: real, y: real)
    requires WellFormed(t) && SliderStep(ClockTime, w, text, LunchBounds(t), pick) == Ok(l)
    requires w.Widen? && pick.Some? ==> Readable(ClockTime, pick.value)
    ensures SliderStep(ClockTime, w, Interval(l, y), LunchBounds(t), pick) == Ok(l)
  {
    LunchBottomReadable(t);
    ReadBackIsReadable(ClockTime, text);
    ReadBackOfFormatTime(ClockTime, l, y);
    StepAgain(w, text, Interval(l, y), LunchBounds(t), pick, l);
  }

  /** The three sliders settle on `c` when each of them, drawn in turn,
      settles on its part of `c`. */
  lemma ChooseOfSteps(reader: Reader, w: Widget, t: Template, row: Row, picks: Picks, c: Choice)
    requires SliderStep(reader, w, row.startTime, StartBounds(t), picks.start) == Ok(c.start)
    requires ReadBack(reader, FormatTime(c.start)).Some?
    requires SliderStep(reader, w, row.endTime, EndBounds(t, ReadBack(reader, FormatTime(c.start)).value),
                        picks.end) == Ok(c.end)
    requires SliderStep(reader, w, row.lunch, LunchBounds(t), picks.lunch) == Ok(c.lunch)
    ensures Choose(reader, w, t, row, picks) == Ok(c)
  {
  }

  /** The three sliders of a row, drawn in turn, settle on `c`. */
  predicate Settles(reader: Reader, w: Widget, t: Template, row: Row, picks: Picks, c: Choice)
  {
    && SliderStep(reader, w, row.startTime, StartBounds(t), picks.start) == Ok(c.start)
    && ReadBack(reader, FormatTime(c.start)).Some?
    && SliderStep(reader, w, row.endTime, EndBounds(t, ReadBack(reader, FormatTime(c.start)).value),
                  picks.end) == Ok(c.end)
    && SliderStep(reader, w, row.lunch, LunchBounds(t), picks.lunch) == Ok(c.lunch)
  }

  /** With the corrected reader, the three sliders drawn again over the
      texts they wrote (the lunch as an interval from the chosen start)
      settle on the same values. */
  lemma StepsAgain(w: Widget, t: Template, row: Row, picks: Picks, c: Choice, written: Row, y: real)
    requires WellFormed(t) && Settles(ClockTime, w, t, row, picks, c)
    requires w.Widen? ==> OnTheMinute(picks)
    requires written.startTime == FormatTime(c.start) && written.endTime == FormatTime(c.end)
    requires written.lunch == Interval(c.lunch, y)
    ensures Choose(ClockTime, w, t, written, picks) == Ok(c)
  {
    var startRead := ReadBack(ClockTime, FormatTime(c.start)).value;
    ReadBackIsReadable(ClockTime, FormatTime(c.start));
    StartAgain(w, t, row.startTime, picks.start, c.start);
    EndAgain(w, t, row.endTime, picks.end, startRead, c.end);
    LunchAgain(w, t, row.lunch, picks.lunch, c.lunch, y);
    ChooseOfSteps(ClockTime, w, t, written, picks, c);
  }

  /** A row the page adjusts has a known shift whose sliders settle, and
      the chosen values are what is written back. */
  lemma AdjustRowApplies(reader: Reader, w: Widget, row: Row, picks: Picks)
    requires AdjustRowWith(reader, w, row, picks).Ok?
    ensures Lookup(row.shift).Some? && Choose(reader, w, Lookup(row.shift).value, row, picks).Ok?
    ensures AdjustRowWith(reader, w, row, picks).value
              == Apply(row, Choose(reader, w, Lookup(row.shift).value, row, picks).value)
  {
  }

  /** A row written with a choice the corrected page settles on is adjusted
      into itself. */
  lemma ApplyAgain(w: Widget, t: Template, row: Row, picks: Picks, c: Choice)
    requires WellFormed(t) && Lookup(row.shift) == Some(t) && Settles(ClockTime, w, t, row, picks, c)
    requires w.Widen? ==> OnTheMinute(picks)
    ensures AdjustRow(w, Apply(row, c), picks) == Ok(Apply(row, c))
  {
    AppliedTexts(row, c);
    LunchTextInterval(row.shift, c.lunch);
    StepsAgain(w, t, row, picks, c, Apply(row, c), c.lunch + LunchDuration(row.shift));
    ApplyTwice(row, c);
    AdjustRowOfChoice(ClockTime, w, t, Apply(row, c), picks, c);
  }

  /** The texts a choice writes into a row. */
  lemma AppliedTexts(row: Row, c: Choice)
    ensures Apply(row, c).startTime == FormatTime(c.start) && Apply(row, c).endTime == FormatTime(c.end)
    ensures Apply(row, c).lunch == LunchText(row.shift, c.lunch)
  {
    AppliedStart(row, c);
    AppliedEnd(row, c);
    AppliedLunch(row, c);
  }

  /** The start text written is the formatted start. */
  lemma AppliedStart(row: Row, c: Choice)
    ensures Apply(row, c).startTime == FormatTime(c.start)
  {
  }

  /** The end text written is the formatted end. */
  lemma AppliedEnd(row: Row, c: Choice)
    ensures Apply(row, c).endTime == FormatTime(c.end)
  {
  }

  /** The lunch text written is the interval of the shift's lunch length. */
  lemma AppliedLunch(row: Row, c: Choice)
    ensures Apply(row, c).lunch == LunchText(row.shift, c.lunch)
  {
  }

  /** Writing the same choice twice is writing it once. */
  lemma ApplyTwice(row: Row, c: Choice)
    ensures Apply(Apply(row, c), c) == Apply(row, c)
  {
  }

  /** A row of a known shift whose sliders settle is adjusted into the row
      with the settled values written back. */
  lemma AdjustRowOfChoice(reader: Reader, w: Widget, t: Template, row: Row, picks: Picks, c: Choice)
    requires Lookup(row.shift) == Some(t) && Choose(reader, w, t, row, picks) == Ok(c)
    ensures AdjustRowWith(reader, w, row, picks) == Ok(Apply(row, c))
  {
  }

  /** The page runs again on every interaction, over the table it wrote the
      time before and with the sliders where the user left them. With the
      corrected reader a second run changes nothing; with a widening widget
      this needs the picks on the minute, as the half-hour step keeps them. */
  lemma AdjustRowIdempotent(w: Widget, row: Row, picks: Picks)
    requires AdjustRow(w, row, picks).Ok?
    requires w.Widen? ==> OnTheMinute(picks)
    ensures AdjustRow(w, AdjustRow(w, row, picks).value, picks) == AdjustRow(w, row, picks)
  {
    AdjustRowApplies(ClockTime, w, row, picks);
    var t := Lookup(row.shift).value;
    var c := Choose(ClockTime, w, t, row, picks).value;
    LookupWellFormed(row.shift);
    ChoiceSettles(ClockTime, w, t, row, picks, c);
    ApplyAgain(w, t, row, picks, c);
  }

  /** The sliders a choice came from settle on it. */
  lemma ChoiceSettles(reader: Reader, w: Widget, t: Template, row: Row, picks: Picks, c: Choice)
    requires Choose(reader, w, t, row, picks) == Ok(c)
    ensures Settles(reader, w, t, row, picks, c)
  {
    var start := SliderStep(reader, w, row.startTime, StartBounds(t), picks.start);
    assert start.Ok? && start.value == c.start;
    var startRead := ReadBack(reader, FormatTime(c.start));
    assert startRead.Some?;
    var end := SliderStep(reader, w, row.endTime, EndBounds(t, startRead.value), picks.end);
    assert end.Ok? && end.value == c.end;
  }

  /** With the corrected reader and a refusing widget, the adjusted start
      and end read back as a shift of at least an hour. */
  lemma AdjustedShiftLastsAnHour(row: Row, picks: Picks)
    requires AdjustRow(Refuse, row, picks).Ok?
    ensures ReadStart(AdjustRow(Refuse, row, picks).value.startTime).Some?
    ensures ReadStart(AdjustRow(Refuse, row, picks).value.endTime).Some?
    ensures ReadStart(AdjustRow(Refuse, row, picks).value.startTime).value + 1.0
              <= ReadStart(AdjustRow(Refuse, row, picks).value.endTime).value
  {
    AdjustRowApplies(ClockTime, Refuse, row, picks);
    var t := Lookup(row.shift).value;
    var c := Choose(ClockTime, Refuse, t, row, picks).value;
    assert AdjustRow(Refuse, row, picks).value.startTime == FormatTime(c.start);
    assert AdjustRow(Refuse, row, picks).value.endTime == FormatTime(c.end);
    ChoiceLastsAnHour(t, row, picks, c);
  }

  /** The start and end the corrected sliders settle on read back an hour
      or more apart. */
  lemma ChoiceLastsAnHour(t: Template, row: Row, picks: Picks, c: Choice)
    requires Choose(ClockTime, Refuse, t, row, picks) == Ok(c)
    ensures ReadStart(FormatTime(c.start)).Some? && ReadStart(FormatTime(c.end)).Some?
    ensures ReadStart(FormatTime(c.start)).value + 1.0 <= ReadStart(FormatTime(c.end)).value
  {
    var startRead := ReadBack(ClockTime, FormatTime(c.start)).value;
    ReadBackIsReadable(ClockTime, FormatTime(c.start));
    EndBottomReadable(t, startRead);
    SeenAsClockBetween(EndBounds(t, startRead).lo, c.end);
    ReadBackOfFormatTime(ClockTime, c.end, 0.0);
  }

  /** As written, with a refusing widget, the page only keeps the end's
      hour at least one past the start's hour. */
  lemma AsWrittenEndHourAfterStartHour(row: Row, picks: Picks)
    requires AdjustRowAsWritten(Refuse, row, picks).Ok?
    ensures ReadHour(AdjustRowAsWritten(Refuse, row, picks).value.startTime).Some?
    ensures ReadHour(AdjustRowAsWritten(Refuse, row, picks).value.endTime).Some?
    ensures ReadHour(AdjustRowAsWritten(Refuse, row, picks).value.startTime).value + 1.0
              <= ReadHour(AdjustRowAsWritten(Refuse, row, picks).value.endTime).value
  {
    var t := Lookup(row.shift).value;
    var c := Choose(HourPart, Refuse, t, row, picks).value;
    assert AdjustRowAsWritten(Refuse, row, picks) == Ok(Apply(row, c));
    ReadHourOfFormatTime(c.start, 0.0);
    ReadHourOfFormatTime(c.end, 0.0);
    var h := Trunc(c.start);
    assert ReadBack(HourPart, FormatTime(c.start)) == Some(h as real);
    assert (h + 1) as real <= c.end;
    TruncAtLeast(h + 1, c.end);
  }

  /** An untouched slider writes back a text that reads as the one it was
      drawn over. */
  lemma UntouchedKeeps(w: Widget, text: string, b: Window, v: real, y: real)
    requires SliderStep(ClockTime, w, text, b, None) == Ok(v)
    ensures ReadStart(FormatTime(v)) == ReadStart(text)
    ensures ReadStart(Interval(v, y)) == ReadStart(text)
  {
    UntouchedReadsBack(text, v, y);
  }

  /** A value read back from a text, written back, reads as that text. */
  lemma UntouchedReadsBack(text: string, v: real, y: real)
    requires ReadBack(ClockTime, text) == Some(v)
    ensures ReadStart(FormatTime(v)) == ReadStart(text)
    ensures ReadStart(Interval(v, y)) == ReadStart(text)
  {
    ReadBackIsReadable(ClockTime, text);
    ReadBackRoundTrip(ClockTime, v, y);
  }

  /** With the corrected reader, leaving every slider alone keeps the start,
      the end and the lunch start as they read, whatever the widget. */
  lemma UntouchedRowKeepsTimes(w: Widget, row: Row)
    requires AdjustRow(w, row, Untouched).Ok?
    ensures ReadStart(AdjustRow(w, row, Untouched).value.startTime) == ReadStart(row.startTime)
    ensures ReadStart(AdjustRow(w, row, Untouched).value.endTime) == ReadStart(row.endTime)
    ensures ReadStart(AdjustRow(w, row, Untouched).value.lunch) == ReadStart(row.lunch)
  {
    AdjustRowApplies(ClockTime, w, row, Untouched);
    var t := Lookup(row.shift).value;
    var c := Choose(ClockTime, w, t, row, Untouched).value;
    AppliedTexts(row, c);
    LunchTextInterval(row.shift, c.lunch);
    UntouchedChoiceKeeps(w, t, row, c, c.lunch + LunchDuration(row.shift));
  }

  /** The untouched sliders' values written back read as the texts they
      were drawn over. */
  lemma UntouchedChoiceKeeps(w: Widget, t: Template, row: Row, c: Choice, y: real)
    requires Choose(ClockTime, w, t, row, Untouched) == Ok(c)
    ensures ReadStart(FormatTime(c.start)) == ReadStart(row.startTime)
    ensures ReadStart(FormatTime(c.end)) == ReadStart(row.endTime)
    ensures ReadStart(Interval(c.lunch, y)) == ReadStart(row.lunch)
  {
    UntouchedReadsBack(row.startTime, c.start, 0.0);
    UntouchedReadsBack(row.endTime, c.end, 0.0);
    UntouchedReadsBack(row.lunch, c.lunch, y);
  }

  /** A value the user picks is what the row shows afterwards; a picked
      lunch is written as an interval of the shift's lunch duration. With a
      refusing widget every pick lies in its slider's range: the end at
      least an hour after the start the row now shows, as read back. */
  lemma PicksWritten(reader: Reader, w: Widget, row: Row, picks: Picks)
    requires AdjustRowWith(reader, w, row, picks).Ok?
    ensures picks.start.Some? ==> AdjustRowWith(reader, w, row, picks).value.startTime == FormatTime(picks.start.value)
    ensures picks.end.Some? ==> AdjustRowWith(reader, w, row, picks).value.endTime == FormatTime(picks.end.value)
    ensures picks.lunch.Some? ==>
              AdjustRowWith(reader, w, row, picks).value.lunch
                == LunchText(row.shift, picks.lunch.value)
    ensures w.Refuse? && picks.start.Some? ==>
              StartBounds(Lookup(row.shift).value).lo <= picks.start.value <= StartBounds(Lookup(row.shift).value).hi
    ensures w.Refuse? && picks.end.Some? ==>
              && ReadBack(reader, AdjustRowWith(reader, w, row, picks).value.startTime).Some?
              && ReadBack(reader, AdjustRowWith(reader, w, row, picks).value.startTime).value + 1.0 <= picks.end.value
              && picks.end.value <= Lookup(row.shift).value.adjustable.hi
    ensures w.Refuse? && picks.lunch.Some? ==>
              LunchBounds(Lookup(row.shift).value).lo <= picks.lunch.value <= LunchBounds(Lookup(row.shift).value).hi
  {
    AdjustRowApplies(reader, w, row, picks);
    var t := Lookup(row.shift).value;
    var c := Choose(reader, w, t, row, picks).value;
    var out := AdjustRowWith(reader, w, row, picks).value;
    ChoiceInRange(reader, w, t, row, picks, c);
    PicksSettled(picks, c, ReadBack(reader, row.startTime).value, ReadBack(reader, row.endTime).value,
                 ReadBack(reader, row.lunch).value);
    AppliedStart(row, c);
    ChoiceTexts(row, c, picks.start, picks.end, picks.lunch);
  }

  /** With a refusing widget, every pick of a row of shift `t` lies in its
      slider's range; the end at least an hour after the start written
      back, as read back. */
  lemma ChoiceInRange(reader: Reader, w: Widget, t: Template, row: Row, picks: Picks, c: Choice)
    requires Choose(reader, w, t, row, picks) == Ok(c)
    ensures w.Refuse? && picks.start.Some? ==> StartBounds(t).lo <= picks.start.value <= StartBounds(t).hi
    ensures w.Refuse? && picks.end.Some? ==>
              && ReadBack(reader, FormatTime(c.start)).Some?
              && ReadBack(reader, FormatTime(c.start)).value + 1.0 <= picks.end.value <= t.adjustable.hi
    ensures w.Refuse? && picks.lunch.Some? ==> LunchBounds(t).lo <= picks.lunch.value <= LunchBounds(t).hi
  {
    PicksSettled(picks, c, ReadBack(reader, row.startTime).value, ReadBack(reader, row.endTime).value,
                 ReadBack(reader, row.lunch).value);
  }

  /** The texts written for a choice that takes each pick there is. */
  lemma ChoiceTexts(row: Row, c: Choice, start: Option<real>, end: Option<real>, lunch: Option<real>)
    requires start.Some? ==> c.start == start.value
    requires end.Some? ==> c.end == end.value
    requires lunch.Some? ==> c.lunch == lunch.value
    ensures start.Some? ==> Apply(row, c).startTime == FormatTime(start.value)
    ensures end.Some? ==> Apply(row, c).endTime == FormatTime(end.value)
    ensures lunch.Some? ==> Apply(row, c).lunch == LunchText(row.shift, lunch.value)
  {
    StartWritten(row, c, start);
    EndWritten(row, c, end);
    LunchWritten(row, c, lunch);
  }

  /** The start written back when the start slider settles on a pick. */
  lemma StartWritten(row: Row, c: Choice, pick: Option<real>)
    requires pick.Some? ==> pick.value == c.start
    ensures pick.Some? ==> Apply(row, c).startTime == FormatTime(pick.value)
  {
    AppliedStart(row, c);
  }

  /** The end written back when the end slider settles on a pick. */
  lemma EndWritten(row: Row, c: Choice, pick: Option<real>)
    requires pick.Some? ==> pick.value == c.end
    ensures pick.Some? ==> Apply(row, c).endTime == FormatTime(pick.value)
  {
    AppliedEnd(row, c);
  }

  /** A choice whose every part is settled on its pick or its initial
      value takes each pick there is. */
  lemma PicksSettled(picks: Picks, c: Choice, start: real, end: real, lunch: real)
    requires c.start == SettledOn(picks.start, start) && c.end == SettledOn(picks.end, end)
    requires c.lunch == SettledOn(picks.lunch, lunch)
    ensures picks.start.Some? ==> c.start == picks.start.value
    ensures picks.end.Some? ==> c.end == picks.end.value
    ensures picks.lunch.Some? ==> c.lunch == picks.lunch.value
  {
  }

  /** The lunch written back when the lunch slider settles on a pick. */
  lemma LunchWritten(row: Row, c: Choice, pick: Option<real>)
    requires pick.Some? ==> pick.value == c.lunch
    ensures pick.Some? ==> Apply(row, c).lunch == LunchText(row.shift, pick.value)
  {
    AppliedLunch(row, c);
  }

  /** With a widening widget, every pick lies in the range its slider
      offers once stretched to the value read back from the row; the end
      slider's range starts an hour after the start the row now shows. */
  lemma PicksOffered(reader: Reader, row: Row, picks: Picks)
    requires AdjustRowWith(reader, Widen, row, picks).Ok?
    ensures ReadBack(reader, row.startTime).Some? && ReadBack(reader, row.endTime).Some?
    ensures ReadBack(reader, row.lunch).Some?
    ensures ReadBack(reader, AdjustRowWith(reader, Widen, row, picks).value.startTime).Some?
    ensures picks.start.Some? ==>
              InOffered(StartBounds(Lookup(row.shift).value), ReadBack(reader, row.startTime).value, picks.start.value)
    ensures picks.end.Some? ==>
              InOffered(EndBounds(Lookup(row.shift).value,
                                  ReadBack(reader, AdjustRowWith(reader, Widen, row, picks).value.startTime).value),
                        ReadBack(reader, row.endTime).value, picks.end.value)
    ensures picks.lunch.Some? ==>
              InOffered(LunchBounds(Lookup(row.shift).value), ReadBack(reader, row.lunch).value, picks.lunch.value)
  {
    AdjustRowApplies(reader, Widen, row, picks);
    var t := Lookup(row.shift).value;
    var c := Choose(reader, Widen, t, row, picks).value;
    AppliedStart(row, c);
  }

  /** `v` lies in the range a widening slider over `b` offers when drawn
      with initial value `current`. */
  predicate InOffered(b: Window, current: real, v: real)
  {
    Offered(Widen, b, current).lo <= v <= Offered(Widen, b, current).hi
  }

  /** A pick that lies outside the range its slider offers. */
  predicate OffRange(w: Widget, b: Window, current: real, pick: Option<real>)
  {
    pick.Some? && !(Offered(w, b, current).lo <= pick.value <= Offered(w, b, current).hi)
  }

  /** A pick outside the range its slider offers is refused, once the row's
      shift is known and its current times can be read: the start outside
      the start slider, the end below an hour after the start just settled
      (as read back) or past the adjustable range, the lunch outside the
      lunch slider. */
  lemma OutOfRangePickRejected(reader: Reader, w: Widget, row: Row, picks: Picks)
    requires Lookup(row.shift).Some?
    requires ReadBack(reader, row.startTime).Some? && ReadBack(reader, row.endTime).Some?
             && ReadBack(reader, row.lunch).Some?
    requires || OffRange(w, StartBounds(Lookup(row.shift).value), ReadBack(reader, row.startTime).value, picks.start)
             || OffRange(w, EndBounds(Lookup(row.shift).value,
                                      SeenAs(reader, SettledOn(picks.start, ReadBack(reader, row.startTime).value))),
                         ReadBack(reader, row.endTime).value, picks.end)
             || OffRange(w, LunchBounds(Lookup(row.shift).value), ReadBack(reader, row.lunch).value, picks.lunch)
    ensures AdjustRowWith(reader, w, row, picks) == Err(OutOfRange)
  {
    var t := Lookup(row.shift).value;
    LookupWellFormed(row.shift);
    ChooseFailsOnlyOutOfRange(reader, w, t, row, picks);
    ChooseRefusesOffRange(reader, w, t, row, picks);
  }

  /** The sliders of a row of shift `t` fail on a pick outside the range
      its slider offers. */
  lemma ChooseRefusesOffRange(reader: Reader, w: Widget, t: Template, row: Row, picks: Picks)
    requires ReadBack(reader, row.startTime).Some? && ReadBack(reader, row.endTime).Some?
             && ReadBack(reader, row.lunch).Some?
    requires reader.HourPart? || (0.0 <= StartBounds(t).lo && 0.0 <= StartBounds(t).hi)
    requires || OffRange(w, StartBounds(t), ReadBack(reader, row.startTime).value, picks.start)
             || OffRange(w, EndBounds(t, SeenAs(reader, SettledOn(picks.start, ReadBack(reader, row.startTime).value))),
                         ReadBack(reader, row.endTime).value, picks.end)
             || OffRange(w, LunchBounds(t), ReadBack(reader, row.lunch).value, picks.lunch)
    ensures Choose(reader, w, t, row, picks).Err?
  {
    if OffRange(w, StartBounds(t), ReadBack(reader, row.startTime).value, picks.start) {
      OffRangeRefused(reader, w, row.startTime, StartBounds(t), picks.start);
      StartStepRefused(reader, w, t, row, picks);
    } else if OffRange(w, LunchBounds(t), ReadBack(reader, row.lunch).value, picks.lunch) {
      OffRangeRefused(reader, w, row.lunch, LunchBounds(t), picks.lunch);
      LunchStepRefused(reader, w, t, row, picks);
    } else {
      var start := SliderStep(reader, w, row.startTime, StartBounds(t), picks.start);
      if start.Err? {
        StartStepRefused(reader, w, t, row, picks);
      } else {
        StartReadsBack(reader, w, t, row.startTime, picks.start, start.value);
        OffRangeRefused(reader, w, row.endTime, EndBounds(t, SeenAs(reader, start.value)), picks.end);
        EndStepRefused(reader, w, t, row, picks, start.value);
      }
    }
  }

  /** A slider whose pick lies outside the range it offers fails. */
  lemma OffRangeRefused(reader: Reader, w: Widget, text: string, b: Window, pick: Option<real>)
    requires ReadBack(reader, text).Some? && OffRange(w, b, ReadBack(reader, text).value, pick)
    ensures SliderStep(reader, w, text, b, pick).Err?
  {
  }

  /** The start a start slider settles on is written and read back as the
      reader sees it. */
  lemma StartReadsBack(reader: Reader, w: Widget, t: Template, text: string, pick: Option<real>, v: real)
    requires SliderStep(reader, w, text, StartBounds(t), pick) == Ok(v)
    requires reader.HourPart? || (0.0 <= StartBounds(t).lo && 0.0 <= StartBounds(t).hi)
    ensures ReadBack(reader, FormatTime(v)) == Some(SeenAs(reader, v))
  {
    ReadBackIsReadable(reader, text);
    ReadBackOfFormatTime(reader, v, 0.0);
  }

  /** The sliders fail once the start slider fails. */
  lemma StartStepRefused(reader: Reader, w: Widget, t: Template, row: Row, picks: Picks)
    requires SliderStep(reader, w, row.startTime, StartBounds(t), picks.start).Err?
    ensures Choose(reader, w, t, row, picks).Err?
  {
  }

  /** The sliders fail once the end slider, drawn after the start slider
      settled on `v`, fails. */
  lemma EndStepRefused(reader: Reader, w: Widget, t: Template, row: Row, picks: Picks, v: real)
    requires SliderStep(reader, w, row.startTime, StartBounds(t), picks.start) == Ok(v)
    requires ReadBack(reader, FormatTime(v)).Some?
    requires SliderStep(reader, w, row.endTime, EndBounds(t, ReadBack(reader, FormatTime(v)).value), picks.end).Err?
    ensures Choose(reader, w, t, row, picks).Err?
  {
  }

  /** The sliders fail once the lunch slider fails. */
  lemma LunchStepRefused(reader: Reader, w: Widget, t: Template, row: Row, picks: Picks)
    requires SliderStep(reader, w, row.lunch, LunchBounds(t), picks.lunch).Err?
    ensures Choose(reader, w, t, row, picks).Err?
  {
  }

  /** A refusing widget stops the page at a row whose lunch text reads
      back outside the lunch slider's range, whatever the user picks. */
  lemma LunchOutOfRangeRefused(reader: Reader, t: Template, row: Row, picks: Picks)
    requires ReadBack(reader, row.lunch).Some?
    requires !(LunchBounds(t).lo <= ReadBack(reader, row.lunch).value <= LunchBounds(t).hi)
    ensures Choose(reader, Refuse, t, row, picks).Err?
  {
    LunchStepRefused(reader, Refuse, t, row, picks);
  }

  /** Once a row's current times can be read, the page can only fail on a
      value outside a slider's range. */
  lemma ChooseFailsOnlyOutOfRange(reader: Reader, w: Widget, t: Template, row: Row, picks: Picks)
    requires ReadBack(reader, row.startTime).Some? && ReadBack(reader, row.endTime).Some?
             && ReadBack(reader, row.lunch).Some?
    requires reader.HourPart? || (0.0 <= StartBounds(t).lo && 0.0 <= StartBounds(t).hi)
    ensures Choose(reader, w, t, row, picks).Err? ==> Choose(reader, w, t, row, picks).error == OutOfRange
  {
    var start := SliderStep(reader, w, row.startTime, StartBounds(t), picks.start);
    if start.Ok? {
      ReadBackOfFormatTime(reader, start.value, 0.0);
      var end := SliderStep(reader, w, row.endTime, EndBounds(t, SeenAs(reader, start.value)), picks.end);
      var lunch := SliderStep(reader, w, row.lunch, LunchBounds(t), picks.lunch);
      assert end.Err? ==> end.error == OutOfRange;
      assert lunch.Err? ==> lunch.error == OutOfRange;
    }
  }

  /** An untouched slider whose initial value reads back settles on that
      value, provided a refusing widget finds it inside its range. */
  lemma UntouchedStep(reader: Reader, w: Widget, text: string, b: Window, v: real)
    requires ReadBack(reader, text) == Some(v) && (w.Refuse? ==> b.lo <= v <= b.hi)
    ensures SliderStep(reader, w, text, b, None) == Ok(v)
  {
  }

  /** With the corrected reader and the corrected lunch spread, the row
      generated for employee `i` of `n` on a well-formed template of the
      table, whose lunch starts at `l`, passes the page untouched with its
      start and end texts as they were; only the lunch gains its end. */
  lemma RowAdjustsUntouched(w: Widget, t: Template, n: nat, i: nat, row: Row, l: real)
    requires WellFormed(t) && Lookup(t.name) == Some(t) && i < n
    requires row == EmployeeRow(WithinLunchSlider, t, n, i) && l == LunchStarts(WithinLunchSlider, t, n)[i]
    ensures AdjustRow(w, row, Untouched) == Ok(row.(lunch := LunchText(row.shift, l)))
  {
    GeneratedRowShows(t, n, i, row);
    GeneratedLunchReadable(t, n, i, l);
    ShiftNamed(row, t);
    UntouchedRowAdjusts(w, t, row, l);
  }

  /** A generated row shows the shift's name, its default hours and the
      employee's staggered lunch start. */
  lemma GeneratedRowShows(t: Template, n: nat, i: nat, row: Row)
    requires i < n && row == EmployeeRow(WithinLunchSlider, t, n, i)
    ensures row.shift == t.name
    ensures row.startTime == FormatTime(t.defaultStart) && row.endTime == FormatTime(t.defaultEnd)
    ensures row.lunch == FormatTime(LunchStarts(WithinLunchSlider, t, n)[i])
  {
  }

  /** A generated lunch start is on the minute and inside the lunch slider. */
  lemma GeneratedLunchReadable(t: Template, n: nat, i: nat, l: real)
    requires WellFormed(t) && i < n && l == LunchStarts(WithinLunchSlider, t, n)[i]
    ensures Readable(ClockTime, l)
    ensures LunchBounds(t).lo <= l <= LunchBounds(t).hi
  {
    GeneratedLunchFitsSlider(t, n);
    TenthsAreWholeMinutes(l);
  }

  /** A row labelled with a template's name is looked up as that template. */
  lemma ShiftNamed(row: Row, t: Template)
    requires row.shift == t.name && Lookup(t.name) == Some(t)
    ensures Lookup(row.shift) == Some(t) && LunchDuration(row.shift) == LunchDuration(t.name)
  {
  }

  /** A row of a well-formed shift of the table that shows the default hours
      and a lunch start on the minute inside the lunch slider passes the
      page untouched; only the lunch gains its end. */
  lemma UntouchedRowAdjusts(w: Widget, t: Template, row: Row, l: real)
    requires WellFormed(t) && Lookup(row.shift) == Some(t)
    requires row.startTime == FormatTime(t.defaultStart) && row.endTime == FormatTime(t.defaultEnd)
    requires row.lunch == FormatTime(l)
    requires Readable(ClockTime, l) && LunchBounds(t).lo <= l <= LunchBounds(t).hi
    ensures AdjustRow(w, row, Untouched) == Ok(row.(lunch := LunchText(row.shift, l)))
  {
    UntouchedRowChoice(w, t, row, l);
    DefaultChoiceApplied(w, t, row, l);
  }

  /** The untouched sliders of such a row settle on the default hours and
      the lunch start it shows. */
  lemma UntouchedRowChoice(w: Widget, t: Template, row: Row, l: real)
    requires WellFormed(t)
    requires row.startTime == FormatTime(t.defaultStart) && row.endTime == FormatTime(t.defaultEnd)
    requires row.lunch == FormatTime(l)
    requires Readable(ClockTime, l) && LunchBounds(t).lo <= l <= LunchBounds(t).hi
    ensures Choose(ClockTime, w, t, row, Untouched) == Ok(Choice(t.defaultStart, t.defaultEnd, l))
  {
    UntouchedSettles(w, t, row, Choice(t.defaultStart, t.defaultEnd, l));
    ChooseOfSteps(ClockTime, w, t, row, Untouched, Choice(t.defaultStart, t.defaultEnd, l));
  }

  /** When the sliders settle on the hours a row already shows, the page
      rewrites only its lunch. */
  lemma DefaultChoiceApplied(w: Widget, t: Template, row: Row, l: real)
    requires Lookup(row.shift) == Some(t)
    requires row.startTime == FormatTime(t.defaultStart) && row.endTime == FormatTime(t.defaultEnd)
    requires Choose(ClockTime, w, t, row, Untouched) == Ok(Choice(t.defaultStart, t.defaultEnd, l))
    ensures AdjustRow(w, row, Untouched) == Ok(row.(lunch := LunchText(row.shift, l)))
  {
    AdjustRowOfChoice(ClockTime, w, t, row, Untouched, Choice(t.defaultStart, t.defaultEnd, l));
    ApplyKeepsTimes(row, t.defaultStart, t.defaultEnd, l, LunchDuration(row.shift));
  }

  /** The untouched sliders of a row that shows the shift's default hours
      and a lunch start inside the lunch slider settle on those values. */
  lemma UntouchedSettles(w: Widget, t: Template, row: Row, c: Choice)
    requires WellFormed(t) && c.start == t.defaultStart && c.end == t.defaultEnd
    requires row.startTime == FormatTime(c.start) && row.endTime == FormatTime(c.end)
    requires row.lunch == FormatTime(c.lunch)
    requires Readable(ClockTime, c.lunch) && LunchBounds(t).lo <= c.lunch <= LunchBounds(t).hi
    ensures Settles(ClockTime, w, t, row, Untouched, c)
  {
    ReadBackRoundTrip(ClockTime, c.start, 0.0);
    ReadBackRoundTrip(ClockTime, c.end, 0.0);
    ReadBackRoundTrip(ClockTime, c.lunch, 0.0);
    UntouchedStep(ClockTime, w, row.startTime, StartBounds(t), c.start);
    UntouchedStep(ClockTime, w, row.endTime, EndBounds(t, c.start), c.end);
    UntouchedStep(ClockTime, w, row.lunch, LunchBounds(t), c.lunch);
  }

  /** Writing back the start and end a row already shows changes only its
      lunch. */
  lemma ApplyKeepsTimes(row: Row, start: real, end: real, l: real, d: real)
    requires row.startTime == FormatTime(start) && row.endTime == FormatTime(end)
    requires d == LunchDuration(row.shift)
    ensures Apply(row, Choice(start, end, l)) == row.(lunch := Interval(l, l + d))
  {
  }

  /** Every generated row of the table passes the page untouched, whatever
      the widget: its values already lie in their sliders' ranges. */
  lemma GeneratedRowAdjustsUntouched(w: Widget, t: Template, n: nat, i: nat, row: Row, l: real)
    requires t in Shifts && i < n
    requires row == EmployeeRow(WithinLunchSlider, t, n, i) && l == LunchStarts(WithinLunchSlider, t, n)[i]
    ensures AdjustRow(w, row, Untouched) == Ok(row.(lunch := LunchText(row.shift, l)))
  {
    LookupFindsShift(t);
    LookupWellFormed(t.name);
    RowAdjustsUntouched(w, t, n, i, row, l);
  }
}

=== FILE: clock.dfy ===
/** Clock texts: hours held as fractional numbers (8.5 is half past eight)
    are shown as `HH:MM` and, on the adjustment page, read back from those
    texts. The script reads back only the part before the first `:`
    (`HourPart`); `ClockTime` is the corrected reader that keeps the minutes.
 */
module Clock {
  import opened Results
  import opened Text

  /** Python's `int(x)` on a float: truncation toward zero. */
  function Trunc(x: real): (n: int)
    ensures 0.0 <= x ==> 0 <= n && n as real <= x < n as real + 1.0
    ensures x < 0.0 ==> n <= 0 && n as real - 1.0 < x <= n as real
  {
    if x >= 0.0 then x.Floor else -((-x).Floor)
  }

  /** Truncation never goes below a whole number under its argument. */
  lemma TruncAtLeast(n: int, x: real)
    requires n as real <= x
    ensures n <= Trunc(x)
  {
  }

  /** Minutes past the hour as the script computes them: `int((hour - int(hour)) * 60)`. */
  function MinutePart(hour: real): int
  {
    Trunc((hour - Trunc(hour) as real) * 60.0)
  }

  /** `format_time(hour)`: the truncated hour and the truncated minutes, each
      rendered with `:02d`, joined by a colon. */
  function FormatTime(hour: real): (s: string)
    ensures forall i :: 0 <= i < |s| ==> IsDigit(s[i]) || s[i] == ':' || s[i] == '-'
  {
    Pad2(Trunc(hour)) + ":" + Pad2(MinutePart(hour))
  }

  /** A time of day below 100 hours is shown as `HH:MM`: the two digits of
      its whole hours, a colon, and two digits of minutes below 60 that
      together with the hours count the whole minutes in the time. */
  lemma FormatTimeShape(hour: real)
    requires 0.0 <= hour < 100.0
    ensures var s := FormatTime(hour);
            && |s| == 5 && s[2] == ':'
            && AllDigits(s[..2]) && AllDigits(s[3..])
            && DigitsValue(s[..2]) == hour.Floor
            && DigitsValue(s[3..]) < 60
            && DigitsValue(s[..2]) * 60 + DigitsValue(s[3..]) == (hour * 60.0).Floor
  {
    var s := FormatTime(hour);
    MinutePartCountsMinutes(hour);
    assert s[..2] == Pad2(Trunc(hour)) && s[3..] == Pad2(MinutePart(hour));
    Pad2Reads(Trunc(hour));
    Pad2Reads(MinutePart(hour));
  }

  /** An interval as the script writes it: `"<start> - <end>"`. */
  function Interval(start: real, end: real): string
  {
    FormatTime(start) + " - " + FormatTime(end)
  }

  /** Formatted clock texts contain neither a space nor a comma, so they
      survive the `", "` and `" - "` splits of the timeline. */
  lemma FormatTimeHasNoSeparator(hour: real)
    ensures ' ' !in FormatTime(hour) && ',' !in FormatTime(hour) && ':' !in Pad2(Trunc(hour))
    ensures ':' !in Pad2(MinutePart(hour))
  {
  }

  /** `float(text.split(":")[0])`: the number before the first colon. */
  function ReadHour(text: string): (r: Option<real>)
  {
    match ParseInteger(FirstPiece(text, ":"))
    case Some(n) => Some(n as real)
    case None => None
  }

  /** Reads a full `HH:MM` clock text (unsigned digits, minutes below 60) as hours. */
  function ReadClock(text: string): (r: Option<real>)
  {
    var parts := Split(text, ":");
    if |parts| == 2 && |parts[0]| >= 1 && |parts[1]| >= 1
       && AllDigits(parts[0]) && AllDigits(parts[1]) && DigitsValue(parts[1]) < 60
    then Some(DigitsValue(parts[0]) as real + DigitsValue(parts[1]) as real / 60.0)
    else None
  }

  /** Reads the start of a clock text or of an interval `"<start> - <end>"`. */
  function ReadStart(text: string): Option<real>
  {
    ReadClock(FirstPiece(text, " - "))
  }

  /** How a row's time field is read back on the adjustment page. */
  datatype Reader =
    | HourPart    // the script as written: the number before the first colon
    | ClockTime   // corrected: hours and minutes of the (first) clock time

  function ReadBack(reader: Reader, text: string): Option<real>
  {
    match reader
    case HourPart => ReadHour(text)
    case ClockTime => ReadStart(text)
  }

  /** The values a reader can produce: whole hours for `HourPart`,
      non-negative whole minutes for `ClockTime`. */
  predicate Readable(reader: Reader, v: real)
  {
    match reader
    case HourPart => v.Floor as real == v
    case ClockTime => 0.0 <= v && (v * 60.0).Floor as real == v * 60.0
  }

  /** The value a reader finds in `FormatTime(x)`. */
  function SeenAs(reader: Reader, x: real): real
  {
    match reader
    case HourPart => Trunc(x) as real
    case ClockTime => (x * 60.0).Floor as real / 60.0
  }

  /** Whatever a reader returns is one of its readable values. */
  lemma ReadBackIsReadable(reader: Reader, text: string)
    requires ReadBack(reader, text).Some?
    ensures Readable(reader, ReadBack(reader, text).value)
  {
    if reader.ClockTime? {
      ReadClockIsReadable(FirstPiece(text, " - "));
    }
  }

  /** A clock text reads as a non-negative whole number of minutes. */
  lemma ReadClockIsReadable(text: string)
    requires ReadClock(text).Some?
    ensures Readable(ClockTime, ReadClock(text).value)
  {
    var parts := Split(text, ":");
    HoursAndMinutesReadable(DigitsValue(parts[0]), DigitsValue(parts[1]));
  }

  /** Whole hours plus whole minutes are a whole number of minutes. */
  lemma HoursAndMinutesReadable(h: nat, m: nat)
    ensures Readable(ClockTime, h as real + m as real / 60.0)
  {
    assert (h as real + m as real / 60.0) * 60.0 == (h * 60 + m) as real;
  }

  /** The two pieces of a formatted clock text. */
  lemma SplitFormatTime(x: real)
    ensures Split(FormatTime(x), ":") == [Pad2(Trunc(x)), Pad2(MinutePart(x))]
  {
    var a := Pad2(Trunc(x));
    var b := Pad2(MinutePart(x));
    FormatTimeHasNoSeparator(x);
    assert Join([a, b], ":") == a + ":" + b;
    Text.SplitJoin([a, b], ":");
  }

  /** The as-written reader recovers the truncated hour of any formatted
      time, alone or at the head of an interval: the minutes are lost. */
  lemma ReadHourOfFormatTime(x: real, y: real)
    ensures ReadHour(FormatTime(x)) == Some(Trunc(x) as real)
    ensures ReadHour(Interval(x, y)) == Some(Trunc(x) as real)
  {
    var a := Pad2(Trunc(x));
    var b := Pad2(MinutePart(x));
    FormatTimeHasNoSeparator(x);
    Text.FirstPieceOfJoin(a, ":", b);
    var tail := b + " - " + FormatTime(y);
    assert Interval(x, y) == a + ":" + tail;
    Text.FirstPieceOfJoin(a, ":", tail);
    Pad2Reads(Trunc(x));
  }

  /** For a non-negative time, the hour and minute parts together count the
      whole minutes in it. */
  lemma MinutePartCountsMinutes(x: real)
    requires 0.0 <= x
    ensures 0 <= MinutePart(x) < 60
    ensures Trunc(x) * 60 + MinutePart(x) == (x * 60.0).Floor
  {
    var h := Trunc(x);
    var f := (x - h as real) * 60.0;
    assert 0.0 <= f < 60.0;
    assert f == x * 60.0 - (h * 60) as real;
  }

  /** A non-negative formatted time reads back, in full, as its hour part
      plus its minute part. */
  lemma ReadClockOfFormatTime(x: real)
    requires 0.0 <= x
    ensures ReadClock(FormatTime(x)) == Some(Trunc(x) as real + MinutePart(x) as real / 60.0)
  {
    var h := Trunc(x);
    var m := MinutePart(x);
    MinutePartCountsMinutes(x);
    SplitFormatTime(x);
    var parts := Split(FormatTime(x), ":");
    assert parts[0] == Pad2(h) && parts[1] == Pad2(m);
    Pad2Reads(h);
    Pad2Reads(m);
    assert AllDigits(parts[0]) && AllDigits(parts[1]);
    assert DigitsValue(parts[0]) == h;
    assert DigitsValue(parts[1]) == m;
  }

  /** A formatted time, alone or at the head of an interval, is the first
      `" - "` piece. */
  lemma FirstPieceOfFormatTime(x: real, y: real)
    ensures FirstPiece(FormatTime(x), " - ") == FormatTime(x)
    ensures FirstPiece(Interval(x, y), " - ") == FormatTime(x)
  {
    FormatTimeHasNoSeparator(x);
    Text.FirstPieceOfPlain(FormatTime(x), " - ");
    Text.FirstPieceOfJoin(FormatTime(x), " - ", FormatTime(y));
  }

  /** The corrected reader recovers the whole minutes of any non-negative
      formatted time. */
  lemma ReadClockCountsMinutes(x: real)
    requires 0.0 <= x
    ensures ReadClock(FormatTime(x)) == Some((x * 60.0).Floor as real / 60.0)
  {
    ReadClockOfFormatTime(x);
    MinutePartCountsMinutes(x);
    var h := Trunc(x);
    var m := MinutePart(x);
    assert h as real + m as real / 60.0 == (h * 60 + m) as real / 60.0;
  }

  /** The corrected reader recovers the whole minutes of any non-negative
      formatted time, alone or at the head of an interval. */
  lemma ReadStartOfFormatTime(x: real, y: real)
    requires 0.0 <= x
    ensures ReadStart(FormatTime(x)) == Some((x * 60.0).Floor as real / 60.0)
    ensures ReadStart(Interval(x, y)) == Some((x * 60.0).Floor as real / 60.0)
  {
    FirstPieceOfFormatTime(x, y);
    ReadClockCountsMinutes(x);
  }

  /** What each reader finds in a formatted time or interval. */
  lemma ReadBackOfFormatTime(reader: Reader, x: real, y: real)
    requires reader.HourPart? || 0.0 <= x
    ensures ReadBack(reader, FormatTime(x)) == Some(SeenAs(reader, x))
    ensures ReadBack(reader, Interval(x, y)) == Some(SeenAs(reader, x))
  {
    match reader
    case HourPart => ReadHourOfFormatTime(x, y);
    case ClockTime => ReadStartOfFormatTime(x, y);
  }

  /** Formatting a readable value and reading it back gives the value itself. */
  lemma {:induction false} ReadBackRoundTrip(reader: Reader, v: real, y: real)
    requires Readable(reader, v)
    ensures ReadBack(reader, FormatTime(v)) == Some(v)
    ensures ReadBack(reader, Interval(v, y)) == Some(v)
  {
    ReadBackOfFormatTime(reader, v, y);
    SeenAsFixesReadable(reader, v);
  }

  /** Reading back in whole minutes keeps a readable value as it is. */
  lemma SeenAsFixesReadable(reader: Reader, v: real)
    requires Readable(reader, v)
    ensures SeenAs(reader, v) == v
  {
    match reader
    case HourPart =>
      if v < 0.0 {
        assert (-v).Floor == -v.Floor;
      }
    case ClockTime =>
      var w := v * 60.0;
      assert w.Floor as real == w;
      assert w / 60.0 == v;
  }

  /** Reading a time back in whole minutes never goes below a whole-minute
      bound under it, and never above the time itself. */
  lemma SeenAsClockBetween(a: real, x: real)
    requires Readable(ClockTime, a) && a <= x
    ensures a <= SeenAs(ClockTime, x) <= x
    ensures Readable(ClockTime, SeenAs(ClockTime, x))
  {
    var k := (x * 60.0).Floor;
    var m := (a * 60.0).Floor;
    assert m <= k;
    assert SeenAs(ClockTime, x) * 60.0 == k as real;
  }
}

=== FILE: findings.dfy ===
/** Three places where the script does something other than it evidently
    means, each shown on a concrete input against the script as written,
    next to the corrected behaviour the rest of the model uses.

    - Reading a time back by its hour alone loses the minutes: an untouched
      8:30 start becomes 8:00, and a half-past lunch start reads as the hour
      before it, below the lunch slider's bottom.
    - The end slider's bottom is an hour after the start's hour, not after
      the start: a half-hour shift is accepted.
    - Lunch starts are spread over the whole lunch range, so the last
      employee's lunch starts past the top of the lunch slider.

    Where the outcome depends on what the slider widget does with an
    initial value outside its range, both outcomes are shown: a refusing
    widget stops the page, a widening one writes the misplaced lunch back.
 */
module Findings {
  import opened Results
  import opened Clock
  import opened Rounding
  import opened Templates
  import opened Stagger
  import opened Generate
  import opened Adjust
  import opened Pipeline

  /** The row generated for a lone employee on the 8:30 Bogotá shift. */
  const LateBogotaRow := EmployeeRow(OverLunchRange, BogotaLate, 1, 0)

  /** The generated row holds the shift's default hours and the start of
      its lunch range as clock texts. */
  lemma LateBogotaRowTexts()
    ensures LateBogotaRow.shift == BogotaLate.name
    ensures LateBogotaRow.startTime == FormatTime(8.5)
    ensures LateBogotaRow.endTime == FormatTime(18.0)
    ensures LateBogotaRow.lunch == FormatTime(12.0)
  {
    BogotaLateWellFormed();
    GeneratedStaggering(OverLunchRange, BogotaLate, 1);
  }

  /** The script's reader finds the hour of each of the row's texts. */
  lemma LateBogotaRowAsRead()
    ensures ReadHour(LateBogotaRow.startTime) == Some(8.0)
    ensures ReadHour(LateBogotaRow.endTime) == Some(18.0)
    ensures ReadHour(LateBogotaRow.lunch) == Some(12.0)
  {
    LateBogotaRowTexts();
    ReadHourOfFormatTime(8.5, 0.0);
    ReadHourOfFormatTime(18.0, 0.0);
    ReadHourOfFormatTime(12.0, 0.0);
    assert Trunc(8.5) == 8;
  }

  /** The sliders of the 8:30 Bogotá shift: start over [7, 17], lunch over
      [12, 13]. */
  lemma LateBogotaBounds()
    ensures StartBounds(BogotaLate) == Window(7.0, 17.0)
    ensures LunchBounds(BogotaLate) == Window(12.0, 13.0)
    ensures Lookup(BogotaLate.name) == Some(BogotaLate)
  {
    LunchDurationOfShifts();
    LookupFindsEachShift(3);
  }

  /** As written, with every slider left alone the sliders settle on 8:00,
      18:00 and 12:00, whatever the widget: each value read back lies in
      its slider's range. */
  lemma AsWrittenUntouchedChoice(w: Widget)
    ensures Choose(HourPart, w, BogotaLate, LateBogotaRow, Untouched) == Ok(Choice(8.0, 18.0, 12.0))
  {
    var row := LateBogotaRow;
    LateBogotaRowAsRead();
    LateBogotaBounds();
    ReadHourOfFormatTime(8.0, 0.0);
    UntouchedStep(HourPart, w, row.startTime, StartBounds(BogotaLate), 8.0);
    UntouchedStep(HourPart, w, row.endTime, EndBounds(BogotaLate, 8.0), 18.0);
    UntouchedStep(HourPart, w, row.lunch, LunchBounds(BogotaLate), 12.0);
    ChooseOfSteps(HourPart, w, BogotaLate, row, Untouched, Choice(8.0, 18.0, 12.0));
  }

  /** As written, a generated row whose start is 8:30 comes back from the
      page, with no slider touched, starting at 8:00. */
  lemma AsWrittenUntouchedDropsMinutes(w: Widget)
    ensures ReadStart(LateBogotaRow.startTime) == Some(8.5)
    ensures AdjustRowAsWritten(w, LateBogotaRow, Untouched)
              == Ok(LateBogotaRow.(startTime := FormatTime(8.0), lunch := Interval(12.0, 13.0)))
    ensures ReadStart(FormatTime(8.0)) == Some(8.0)
  {
    LateBogotaRowTexts();
    LateBogotaBounds();
    AsWrittenUntouchedChoice(w);
    ReadBackRoundTrip(ClockTime, 8.5, 0.0);
    ReadBackRoundTrip(ClockTime, 8.0, 0.0);
    LunchDurationOfShifts();
    assert Apply(LateBogotaRow, Choice(8.0, 18.0, 12.0))
        == LateBogotaRow.(startTime := FormatTime(8.0), lunch := Interval(12.0, 13.0));
  }

  /** The corrected page leaves the same row's start at 8:30. */
  lemma CorrectedUntouchedKeepsMinutes(w: Widget)
    ensures AdjustRow(w, LateBogotaRow, Untouched)
              == Ok(LateBogotaRow.(lunch := Interval(12.0, 12.0 + LunchDuration(LateBogotaRow.shift))))
    ensures LunchDuration(LateBogotaRow.shift) == 1.0
  {
    BogotaLateWellFormed();
    LateBogotaBounds();
    LateBogotaRowTexts();
    GeneratedStaggering(WithinLunchSlider, BogotaLate, 1);
    GeneratedStaggering(OverLunchRange, BogotaLate, 1);
    assert EmployeeRow(WithinLunchSlider, BogotaLate, 1, 0) == LateBogotaRow;
    RowAdjustsUntouched(w, BogotaLate, 1, 0, LateBogotaRow, 12.0);
    LunchDurationOfShifts();
  }

  /** The first employee of the 8 AM Toronto shift. */
  function FirstTorontoRow(spread: LunchSpread, n: nat): Row
    requires n >= 1
  {
    EmployeeRow(spread, TorontoEarly, n, 0)
  }

  /** The row shows the shift's default hours and a lunch at 11:30. */
  lemma FirstTorontoRowTexts(spread: LunchSpread, n: nat)
    requires n >= 1
    ensures FirstTorontoRow(spread, n).shift == TorontoEarly.name
    ensures FirstTorontoRow(spread, n).startTime == FormatTime(8.0)
    ensures FirstTorontoRow(spread, n).endTime == FormatTime(16.0)
    ensures FirstTorontoRow(spread, n).lunch == FormatTime(11.5)
  {
    TorontoEarlyWellFormed();
    LunchDurationOfShifts();
    GeneratedStaggering(spread, TorontoEarly, n);
  }

  /** As written, the first 8 AM Toronto lunch, at 11:30, is read back as
      11, below the bottom 11.5 of the lunch slider. A refusing widget stops
      the page at that row; a widening one, with no slider touched, writes
      the lunch back as 11:00 - 11:30, which ends as the lunch range opens. */
  lemma AsWrittenFirstTorontoLunch(w: Widget, spread: LunchSpread, n: nat)
    requires n >= 1
    ensures ReadHour(FirstTorontoRow(spread, n).lunch) == Some(11.0)
    ensures 11.0 < LunchBounds(TorontoEarly).lo == TorontoEarly.lunchRange.lo == 11.5
    ensures w.Refuse? ==> AdjustRowAsWritten(w, FirstTorontoRow(spread, n), Untouched) == Err(OutOfRange)
    ensures w.Widen? ==> AdjustRowAsWritten(w, FirstTorontoRow(spread, n), Untouched)
                           == Ok(FirstTorontoRow(spread, n).(lunch := Interval(11.0, 11.5)))
  {
    FirstTorontoLunchReadsEleven(spread, n);
    LunchDurationOfShifts();
    if w.Refuse? {
      AsWrittenRejectsFirstTorontoLunch(spread, n, Untouched);
    } else {
      AsWrittenMovesFirstTorontoLunch(spread, n);
    }
  }

  /** The whole script as written, with a refusing widget: once anyone works
      the 8 AM Toronto shift, the page stops at that shift's first row,
      whatever the picks, and no chart is drawn. */
  lemma AsWrittenRunStops(counts: seq<nat>, picks: seq<Picks>)
    requires |counts| == |Shifts| && counts[0] >= 1
    ensures Run(HourPart, OverLunchRange, Refuse, counts, picks) == Err(OutOfRange)
  {
    var rows := GenerateAll(OverLunchRange, counts);
    GenerateOrder(OverLunchRange, Shifts, counts, 0, 0);
    assert rows[0] == FirstTorontoRow(OverLunchRange, counts[0]);
    AsWrittenRejectsFirstTorontoLunch(OverLunchRange, counts[0], PicksFor(picks, 0));
  }

  /** As written, a refusing widget stops the page at the first 8 AM
      Toronto row, whatever the user picks: its lunch text reads as 11,
      below the lunch slider's bottom of 11.5. */
  lemma AsWrittenRejectsFirstTorontoLunch(spread: LunchSpread, n: nat, picks: Picks)
    requires n >= 1
    ensures AdjustRowAsWritten(Refuse, FirstTorontoRow(spread, n), picks) == Err(OutOfRange)
  {
    var row := FirstTorontoRow(spread, n);
    TorontoEarlyWellFormed();
    LunchDurationOfShifts();
    LookupFindsEachShift(0);
    FirstTorontoRowTexts(spread, n);
    FirstTorontoLunchReadsEleven(spread, n);
    ReadHourOfFormatTime(8.0, 0.0);
    ReadHourOfFormatTime(16.0, 0.0);
    LunchOutOfRangeRefused(HourPart, TorontoEarly, row, picks);
    ChooseFailsOnlyOutOfRange(HourPart, Refuse, TorontoEarly, row, picks);
  }

  /** As written, a widening widget with no slider touched settles the
      first 8 AM Toronto row on 8:00, 16:00 and 11:00. */
  lemma AsWrittenWidenedFirstTorontoChoice(spread: LunchSpread, n: nat)
    requires n >= 1
    ensures Choose(HourPart, Widen, TorontoEarly, FirstTorontoRow(spread, n), Untouched) == Ok(Choice(8.0, 16.0, 11.0))
  {
    var row := FirstTorontoRow(spread, n);
    FirstTorontoRowTexts(spread, n);
    FirstTorontoLunchReadsEleven(spread, n);
    ReadHourOfFormatTime(8.0, 0.0);
    ReadHourOfFormatTime(16.0, 0.0);
    UntouchedStep(HourPart, Widen, row.startTime, StartBounds(TorontoEarly), 8.0);
    UntouchedStep(HourPart, Widen, row.endTime, EndBounds(TorontoEarly, 8.0), 16.0);
    UntouchedStep(HourPart, Widen, row.lunch, LunchBounds(TorontoEarly), 11.0);
    ChooseOfSteps(HourPart, Widen, TorontoEarly, row, Untouched, Choice(8.0, 16.0, 11.0));
  }

  /** As written, a widening widget moves the untouched first 8 AM Toronto
      lunch to 11:00 - 11:30. */
  lemma AsWrittenMovesFirstTorontoLunch(spread: LunchSpread, n: nat)
    requires n >= 1
    ensures AdjustRowAsWritten(Widen, FirstTorontoRow(spread, n), Untouched)
              == Ok(FirstTorontoRow(spread, n).(lunch := Interval(11.0, 11.5)))
  {
    var row := FirstTorontoRow(spread, n);
    FirstTorontoRowTexts(spread, n);
    LunchDurationOfShifts();
    LookupFindsEachShift(0);
    AsWrittenWidenedFirstTorontoChoice(spread, n);
    AdjustRowOfChoice(HourPart, Widen, TorontoEarly, row, Untouched, Choice(8.0, 16.0, 11.0));
    ApplyKeepsTimes(row, 8.0, 16.0, 11.0, 0.5);
  }

  /** The first 8 AM Toronto lunch is written as 11:30 and read back as 11. */
  lemma FirstTorontoLunchReadsEleven(spread: LunchSpread, n: nat)
    requires n >= 1
    ensures ReadHour(FirstTorontoRow(spread, n).lunch) == Some(11.0)
  {
    FirstTorontoRowTexts(spread, n);
    ReadHourOfFormatTime(11.5, 0.0);
    assert Trunc(11.5) == 11;
  }

  /** The user moves the start to 8:30 and the end to 9:00. */
  const ShortShift := Picks(Some(8.5), Some(9.0), None)

  /** As written, the sliders take the 8:30 start and the 9:00 end: the end
      slider's bottom is 9, an hour after the start's hour. */
  lemma AsWrittenShortShiftChoice(w: Widget)
    ensures Choose(HourPart, w, BogotaLate, LateBogotaRow, ShortShift) == Ok(Choice(8.5, 9.0, 12.0))
  {
    var row := LateBogotaRow;
    LateBogotaRowAsRead();
    LateBogotaBounds();
    LateBogotaRowTexts();
    assert SliderStep(HourPart, w, row.startTime, StartBounds(BogotaLate), Some(8.5)) == Ok(8.5);
    assert ReadBack(HourPart, FormatTime(8.5)) == Some(8.0);
    assert SliderStep(HourPart, w, row.endTime, EndBounds(BogotaLate, 8.0), Some(9.0)) == Ok(9.0);
    UntouchedStep(HourPart, w, row.lunch, LunchBounds(BogotaLate), 12.0);
    ChooseOfSteps(HourPart, w, BogotaLate, row, ShortShift, Choice(8.5, 9.0, 12.0));
  }

  /** As written, the page accepts a shift from 8:30 to 9:00, half an hour
      long, whatever the widget. */
  lemma AsWrittenAcceptsHalfHourShift(w: Widget)
    ensures AdjustRowAsWritten(w, LateBogotaRow, ShortShift)
              == Ok(LateBogotaRow.(endTime := FormatTime(9.0), lunch := Interval(12.0, 13.0)))
    ensures LateBogotaRow.startTime == FormatTime(8.5)
    ensures ReadStart(FormatTime(8.5)) == Some(8.5) && ReadStart(FormatTime(9.0)) == Some(9.0)
  {
    LateBogotaRowTexts();
    LateBogotaBounds();
    AsWrittenShortShiftChoice(w);
    LunchDurationOfShifts();
    ReadBackRoundTrip(ClockTime, 8.5, 0.0);
    ReadBackRoundTrip(ClockTime, 9.0, 0.0);
    assert Apply(LateBogotaRow, Choice(8.5, 9.0, 12.0))
        == LateBogotaRow.(endTime := FormatTime(9.0), lunch := Interval(12.0, 13.0));
  }

  /** The corrected page refuses the 9:00 end, whatever the widget: its end
      slider starts at 9:30, an hour after the 8:30 start, and the end
      read back, 18:00, lies inside it. */
  lemma CorrectedRejectsHalfHourShift(w: Widget)
    ensures AdjustRow(w, LateBogotaRow, ShortShift) == Err(OutOfRange)
  {
    var row := LateBogotaRow;
    LateBogotaRowTexts();
    LateBogotaBounds();
    ReadBackRoundTrip(ClockTime, 8.5, 0.0);
    ReadBackRoundTrip(ClockTime, 18.0, 0.0);
    assert SliderStep(ClockTime, w, row.startTime, StartBounds(BogotaLate), Some(8.5)) == Ok(8.5);
    assert Offered(w, EndBounds(BogotaLate, 8.5), 18.0) == EndBounds(BogotaLate, 8.5);
    assert SliderStep(ClockTime, w, row.endTime, EndBounds(BogotaLate, 8.5), Some(9.0)) == Err(OutOfRange);
    assert Choose(ClockTime, w, BogotaLate, row, ShortShift) == Err(OutOfRange);
  }

  /** The last of `n` employees of the 8 AM Toronto shift, with lunch
      starts spread over the whole lunch range as written. */
  function LastTorontoRow(n: nat): Row
    requires n >= 2
  {
    EmployeeRow(OverLunchRange, TorontoEarly, n, n - 1)
  }

  /** The row shows the shift's default hours and a lunch at 13:00, the end
      of the lunch range. */
  lemma LastTorontoRowTexts(n: nat)
    requires n >= 2
    ensures LastTorontoRow(n).shift == TorontoEarly.name
    ensures LastTorontoRow(n).startTime == FormatTime(8.0)
    ensures LastTorontoRow(n).endTime == FormatTime(16.0)
    ensures LastTorontoRow(n).lunch == FormatTime(13.0)
  {
    TorontoEarlyWellFormed();
    GeneratedLunchOverrunsSlider(TorontoEarly, n);
  }

  /** As written, the last of two or more 8 AM Toronto lunches starts at
      13:00, the end of the lunch range, and is read back as 13, above the
      top 12.5 of the lunch slider. A refusing widget stops the page at that
      row; a widening one, with no slider touched, writes the lunch back as
      13:00 - 13:30, which starts as the lunch range closes. */
  lemma AsWrittenLastTorontoLunch(w: Widget, n: nat)
    requires n >= 2
    ensures ReadHour(LastTorontoRow(n).lunch) == Some(13.0)
    ensures LunchBounds(TorontoEarly).hi == 12.5 < 13.0 == TorontoEarly.lunchRange.hi
    ensures w.Refuse? ==> AdjustRowAsWritten(w, LastTorontoRow(n), Untouched) == Err(OutOfRange)
    ensures w.Widen? ==> AdjustRowAsWritten(w, LastTorontoRow(n), Untouched)
                           == Ok(LastTorontoRow(n).(lunch := Interval(13.0, 13.5)))
  {
    LastTorontoRowTexts(n);
    ReadHourOfFormatTime(13.0, 0.0);
    LunchDurationOfShifts();
    if w.Refuse? {
      AsWrittenRejectsLastTorontoLunch(n, Untouched);
    } else {
      AsWrittenKeepsLastTorontoLunch(n);
    }
  }

  /** As written, a refusing widget stops the page at the last 8 AM Toronto
      row, whatever the user picks. */
  lemma AsWrittenRejectsLastTorontoLunch(n: nat, picks: Picks)
    requires n >= 2
    ensures AdjustRowAsWritten(Refuse, LastTorontoRow(n), picks) == Err(OutOfRange)
  {
    var row := LastTorontoRow(n);
    TorontoEarlyWellFormed();
    LunchDurationOfShifts();
    LookupFindsEachShift(0);
    LastTorontoRowTexts(n);
    ReadHourOfFormatTime(8.0, 0.0);
    ReadHourOfFormatTime(16.0, 0.0);
    ReadHourOfFormatTime(13.0, 0.0);
    LunchOutOfRangeRefused(HourPart, TorontoEarly, row, picks);
    ChooseFailsOnlyOutOfRange(HourPart, Refuse, TorontoEarly, row, picks);
  }

  /** As written, a widening widget with no slider touched settles the last
      8 AM Toronto row on 8:00, 16:00 and 13:00. */
  lemma AsWrittenWidenedLastTorontoChoice(n: nat)
    requires n >= 2
    ensures Choose(HourPart, Widen, TorontoEarly, LastTorontoRow(n), Untouched) == Ok(Choice(8.0, 16.0, 13.0))
  {
    var row := LastTorontoRow(n);
    LastTorontoRowTexts(n);
    ReadHourOfFormatTime(8.0, 0.0);
    ReadHourOfFormatTime(16.0, 0.0);
    ReadHourOfFormatTime(13.0, 0.0);
    UntouchedStep(HourPart, Widen, row.startTime, StartBounds(TorontoEarly), 8.0);
    UntouchedStep(HourPart, Widen, row.endTime, EndBounds(TorontoEarly, 8.0), 16.0);
    UntouchedStep(HourPart, Widen, row.lunch, LunchBounds(TorontoEarly), 13.0);
    ChooseOfSteps(HourPart, Widen, TorontoEarly, row, Untouched, Choice(8.0, 16.0, 13.0));
  }

  /** As written, a widening widget keeps the untouched last 8 AM Toronto
      lunch at 13:00, past the slider's top. */
  lemma AsWrittenKeepsLastTorontoLunch(n: nat)
    requires n >= 2
    ensures AdjustRowAsWritten(Widen, LastTorontoRow(n), Untouched)
              == Ok(LastTorontoRow(n).(lunch := Interval(13.0, 13.5)))
  {
    var row := LastTorontoRow(n);
    LastTorontoRowTexts(n);
    LunchDurationOfShifts();
    LookupFindsEachShift(0);
    AsWrittenWidenedLastTorontoChoice(n);
    AdjustRowOfChoice(HourPart, Widen, TorontoEarly, row, Untouched, Choice(8.0, 16.0, 13.0));
    ApplyKeepsTimes(row, 8.0, 16.0, 13.0, 0.5);
  }

  /** With lunch starts spread over the whole lunch range, even the
      corrected reader and a refusing widget stop the page at the last of
      two or more employees, whatever the user picks: the last lunch text
      reads back in full as the end of the lunch range, past the top of the
      lunch slider. */
  lemma OverRangeLastLunchRejected(t: Template, n: nat, picks: Picks)
    requires WellFormed(t) && Lookup(t.name) == Some(t) && n >= 2
    ensures AdjustRow(Refuse, EmployeeRow(OverLunchRange, t, n, n - 1), picks) == Err(OutOfRange)
  {
    var row := EmployeeRow(OverLunchRange, t, n, n - 1);
    LastLunchOverruns(t, n);
    ReadBackRoundTrip(ClockTime, t.defaultStart, 0.0);
    ReadBackRoundTrip(ClockTime, t.defaultEnd, 0.0);
    LunchOutOfRangeRefused(ClockTime, t, row, picks);
    ChooseFailsOnlyOutOfRange(ClockTime, Refuse, t, row, picks);
  }

  /** The last lunch text reads back, in full, as the end of the lunch range. */
  lemma LastLunchOverruns(t: Template, n: nat)
    requires WellFormed(t) && n >= 2
    ensures ReadStart(EmployeeRow(OverLunchRange, t, n, n - 1).lunch) == Some(t.lunchRange.hi)
    ensures t.lunchRange.hi > LunchBounds(t).hi
  {
    GeneratedLunchOverrunsSlider(t, n);
    TenthsAreWholeMinutes(t.lunchRange.hi);
    ReadBackRoundTrip(ClockTime, t.lunchRange.hi, 0.0);
  }

  /** The same for every template of the table. */
  lemma OverRangeLastLunchRejectedInTable(t: Template, n: nat, picks: Picks)
    requires t in Shifts && n >= 2
    ensures AdjustRow(Refuse, EmployeeRow(OverLunchRange, t, n, n - 1), picks) == Err(OutOfRange)
  {
    LookupFindsShift(t);
    LookupWellFormed(t.name);
    OverRangeLastLunchRejected(t, n, picks);
  }
}

=== FILE: generate.dfy ===
/** The "Generate Schedule" step: for every shift, in table order, one row per
    employee carrying the shift's default hours, the employee's staggered
    breaks (each half an hour long) and the employee's staggered lunch start.
 */
module Generate {
  import opened Text
  import opened Clock
  import opened Rounding
  import opened Templates
  import opened Stagger

  /** One row of the schedule table; every field is text, as in the DataFrame. */
  datatype Row = Row(
    shift: string,
    employee: string,
    startTime: string,
    endTime: string,
    breaks: string,
    lunch: string)

  /** Every break lasts half an hour from its staggered start. */
  const BreakLength: real := 0.5

  /** The end of a break that starts at `start`. */
  function BreakEnd(start: real): real
  {
    start + BreakLength
  }

  /** `f"Employee {i+1}"`. */
  function EmployeeLabel(i: nat): string
  {
    "Employee " + NatToString(i + 1)
  }

  /** Different employees of a shift get different labels. */
  lemma EmployeeLabelInjective(i: nat, j: nat)
    requires EmployeeLabel(i) == EmployeeLabel(j)
    ensures i == j
  {
    var p := "Employee ";
    assert NatToString(i + 1) == EmployeeLabel(i)[|p|..];
    assert NatToString(j + 1) == EmployeeLabel(j)[|p|..];
    NatToStringInjective(i + 1, j + 1);
  }

  /** The starts of employee `i`'s breaks, one per break slot. */
  function BreakTimes(t: Template, n: nat, i: nat): (times: seq<real>)
    requires i < n
    ensures |times| == |t.breakSlots|
    ensures forall j :: 0 <= j < |t.breakSlots| ==> times[j] == BreakStarts(t, n, j)[i]
  {
    seq(|t.breakSlots|, j requires 0 <= j < |t.breakSlots| => BreakStarts(t, n, j)[i])
  }

  /** Half-hour `"A - B"` interval texts from the given starts. */
  function Intervals(starts: seq<real>): (pieces: seq<string>)
    ensures |pieces| == |starts|
  {
    seq(|starts|, j requires 0 <= j < |starts| => Interval(starts[j], BreakEnd(starts[j])))
  }

  /** The `"A - B"` pieces of employee `i`'s breaks, one per break slot. */
  function BreakPieces(t: Template, n: nat, i: nat): (pieces: seq<string>)
    requires i < n
    ensures |pieces| == |t.breakSlots|
  {
    Intervals(BreakTimes(t, n, i))
  }

  /** The row of employee `i` among `n` on shift `t`. */
  function EmployeeRow(spread: LunchSpread, t: Template, n: nat, i: nat): Row
    requires i < n
  {
    Row(t.name, EmployeeLabel(i), FormatTime(t.defaultStart), FormatTime(t.defaultEnd),
        Join(BreakPieces(t, n, i), ", "), FormatTime(LunchStarts(spread, t, n)[i]))
  }

  /** The rows of one shift for `n` employees. */
  function GenerateShift(spread: LunchSpread, t: Template, n: nat): (rows: seq<Row>)
    ensures |rows| == n
    ensures forall i :: 0 <= i < n ==> rows[i].shift == t.name && rows[i].employee == EmployeeLabel(i)
    ensures forall i :: 0 <= i < n ==>
              rows[i].startTime == FormatTime(t.defaultStart) && rows[i].endTime == FormatTime(t.defaultEnd)
  {
    seq(n, i requires 0 <= i < n => EmployeeRow(spread, t, n, i))
  }

  function Sum(counts: seq<nat>): nat
  {
    if |counts| == 0 then 0 else counts[0] + Sum(counts[1..])
  }

  /** The number of rows the shifts before position `k` contribute. */
  function RowsBefore(counts: seq<nat>, k: nat): nat
    requires k <= |counts|
    decreases k
  {
    if k == 0 then 0 else counts[0] + RowsBefore(counts[1..], k - 1)
  }

  /** The blocks one after the other. */
  function Flatten<T>(blocks: seq<seq<T>>): seq<T>
  {
    if |blocks| == 0 then [] else blocks[0] + Flatten(blocks[1..])
  }

  /** Blocks of the given sizes flatten to as many elements as the sizes
      add up to. */
  lemma {:induction false} FlattenSize<T>(blocks: seq<seq<T>>, sizes: seq<nat>)
    requires |sizes| == |blocks| && forall k :: 0 <= k < |blocks| ==> |blocks[k]| == sizes[k]
    ensures |Flatten(blocks)| == Sum(sizes)
  {
    if |blocks| > 0 {
      FlattenSize(blocks[1..], sizes[1..]);
    }
  }

  /** Element `i` of block `k` sits right after the elements of the blocks
      before `k`. */
  lemma {:induction false} FlattenAt<T>(blocks: seq<seq<T>>, sizes: seq<nat>, k: nat, i: nat)
    requires |sizes| == |blocks| && forall j :: 0 <= j < |blocks| ==> |blocks[j]| == sizes[j]
    requires k < |blocks| && i < sizes[k]
    ensures RowsBefore(sizes, k) + i < |Flatten(blocks)|
    ensures Flatten(blocks)[RowsBefore(sizes, k) + i] == blocks[k][i]
    decreases k
  {
    FlattenSize(blocks[1..], sizes[1..]);
    if k > 0 {
      FlattenAt(blocks[1..], sizes[1..], k - 1, i);
    }
  }

  /** A property every element of every block has, every element of the
      flattened blocks has. */
  lemma {:induction false} FlattenAll<T>(blocks: seq<seq<T>>, p: T -> bool)
    requires forall k, i :: 0 <= k < |blocks| && 0 <= i < |blocks[k]| ==> p(blocks[k][i])
    ensures forall j :: 0 <= j < |Flatten(blocks)| ==> p(Flatten(blocks)[j])
  {
    if |blocks| > 0 {
      FlattenAll(blocks[1..], p);
    }
  }

  /** The rows of each shift, one block per shift. */
  function ShiftBlocks(spread: LunchSpread, ts: seq<Template>, counts: seq<nat>): (blocks: seq<seq<Row>>)
    requires |counts| == |ts|
    ensures |blocks| == |ts|
    ensures forall k :: 0 <= k < |ts| ==> blocks[k] == GenerateShift(spread, ts[k], counts[k])
    ensures forall k :: 0 <= k < |ts| ==> |blocks[k]| == counts[k]
  {
    seq(|ts|, k requires 0 <= k < |ts| => GenerateShift(spread, ts[k], counts[k]))
  }

  /** The rows of every shift, shift after shift in the order given. */
  function GenerateFor(spread: LunchSpread, ts: seq<Template>, counts: seq<nat>): (rows: seq<Row>)
    requires |counts| == |ts|
    ensures |rows| == Sum(counts)
  {
    FlattenSize(ShiftBlocks(spread, ts, counts), counts);
    Flatten(ShiftBlocks(spread, ts, counts))
  }

  /** The whole table for the headcounts entered per shift, in table order. */
  function GenerateAll(spread: LunchSpread, counts: seq<nat>): (rows: seq<Row>)
    requires |counts| == |Shifts|
    ensures |rows| == Sum(counts)
  {
    GenerateFor(spread, Shifts, counts)
  }

  /** Row `i` of shift `k` sits right after the rows of the shifts before `k`. */
  lemma GenerateOrder(spread: LunchSpread, ts: seq<Template>, counts: seq<nat>, k: nat, i: nat)
    requires |counts| == |ts| && k < |ts| && i < counts[k]
    ensures RowsBefore(counts, k) + i < |GenerateFor(spread, ts, counts)|
    ensures GenerateFor(spread, ts, counts)[RowsBefore(counts, k) + i] == EmployeeRow(spread, ts[k], counts[k], i)
  {
    FlattenAt(ShiftBlocks(spread, ts, counts), counts, k, i);
    GenerateShiftAt(spread, ts[k], counts[k], i);
  }

  /** Row `i` of a shift's rows is employee `i`'s row. */
  lemma GenerateShiftAt(spread: LunchSpread, t: Template, n: nat, i: nat)
    requires i < n
    ensures GenerateShift(spread, t, n)[i] == EmployeeRow(spread, t, n, i)
  {
  }

  /** Interval texts hold no comma, so the `", "` join can be split again. */
  lemma IntervalHasNoComma(a: real, b: real)
    ensures ',' !in Interval(a, b) && |Interval(a, b)| > 0
  {
    FormatTimeHasNoSeparator(a);
    FormatTimeHasNoSeparator(b);
  }

  /** Clock texts hold no space, so an interval splits back on `" - "`. */
  lemma SplitInterval(a: real, b: real)
    ensures Split(Interval(a, b), " - ") == [FormatTime(a), FormatTime(b)]
  {
    FormatTimeHasNoSeparator(a);
    FormatTimeHasNoSeparator(b);
    assert Join([FormatTime(a), FormatTime(b)], " - ") == Interval(a, b);
    SplitJoin([FormatTime(a), FormatTime(b)], " - ");
  }

  /** Splitting an employee's Breaks text on `", "` and each piece on `" - "`
      gives back, for every break slot in order, the formatted start and the
      formatted start plus half an hour. */
  lemma BreaksRoundTrip(spread: LunchSpread, t: Template, n: nat, i: nat)
    requires i < n && |t.breakSlots| >= 1
    ensures |Split(EmployeeRow(spread, t, n, i).breaks, ", ")| == |t.breakSlots|
    ensures forall j :: 0 <= j < |t.breakSlots| ==>
              Split(Split(EmployeeRow(spread, t, n, i).breaks, ", ")[j], " - ")
                == [FormatTime(BreakStarts(t, n, j)[i]), FormatTime(BreakEnd(BreakStarts(t, n, j)[i]))]
  {
    assert EmployeeRow(spread, t, n, i).breaks == Join(BreakPieces(t, n, i), ", ");
    BreakPiecesRoundTrip(t, n, i);
  }

  /** The break pieces of an employee survive their `", "` join, and each
      piece splits on `" - "` into the break's start and end. */
  lemma BreakPiecesRoundTrip(t: Template, n: nat, i: nat)
    requires i < n && |t.breakSlots| >= 1
    ensures Split(Join(BreakPieces(t, n, i), ", "), ", ") == BreakPieces(t, n, i)
    ensures forall j :: 0 <= j < |t.breakSlots| ==>
              Split(BreakPieces(t, n, i)[j], " - ")
                == [FormatTime(BreakStarts(t, n, j)[i]), FormatTime(BreakEnd(BreakStarts(t, n, j)[i]))]
  {
    IntervalsRoundTrip(BreakTimes(t, n, i));
  }

  /** Interval texts survive their `", "` join, and each splits on `" - "`
      into its start and end. */
  lemma IntervalsRoundTrip(starts: seq<real>)
    requires |starts| >= 1
    ensures Split(Join(Intervals(starts), ", "), ", ") == Intervals(starts)
    ensures forall j :: 0 <= j < |starts| ==>
              Split(Intervals(starts)[j], " - ") == [FormatTime(starts[j]), FormatTime(BreakEnd(starts[j]))]
  {
    var pieces := Intervals(starts);
    forall j | 0 <= j < |starts|
      ensures ',' !in pieces[j]
      ensures Split(pieces[j], " - ") == [FormatTime(starts[j]), FormatTime(BreakEnd(starts[j]))]
    {
      IntervalParts(pieces[j], starts[j], BreakEnd(starts[j]));
    }
    SplitJoin(pieces, ", ");
  }

  /** An interval text holds no comma and splits on `" - "` into its ends. */
  lemma IntervalParts(text: string, a: real, b: real)
    requires text == Interval(a, b)
    ensures ',' !in text
    ensures Split(text, " - ") == [FormatTime(a), FormatTime(b)]
  {
    IntervalHasNoComma(a, b);
    SplitInterval(a, b);
  }

  /** On a well-formed template, employees take each break slot in order:
      the first at the slot's start, the last at its end, each no earlier
      than the one before; the same holds for lunch over the window it is
      spread on, and every lunch start lies within the default hours. */
  lemma GeneratedStaggering(spread: LunchSpread, t: Template, n: nat)
    requires WellFormed(t)
    ensures forall j :: 0 <= j < |t.breakSlots| && n >= 1 ==> BreakStarts(t, n, j)[0] == t.breakSlots[j].lo
    ensures forall j :: 0 <= j < |t.breakSlots| && n >= 2 ==> BreakStarts(t, n, j)[n - 1] == t.breakSlots[j].hi
    ensures forall j, i :: 0 <= j < |t.breakSlots| && 0 <= i < n - 1 ==>
              BreakStarts(t, n, j)[i] <= BreakStarts(t, n, j)[i + 1]
    ensures n >= 1 ==> LunchStarts(spread, t, n)[0] == LunchWindow(spread, t).lo
    ensures n >= 2 ==> LunchStarts(spread, t, n)[n - 1] == LunchWindow(spread, t).hi
    ensures forall i :: 0 <= i < n - 1 ==> LunchStarts(spread, t, n)[i] <= LunchStarts(spread, t, n)[i + 1]
    ensures forall i :: 0 <= i < n ==> t.defaultStart <= LunchStarts(spread, t, n)[i] <= t.defaultEnd
  {
    forall j | 0 <= j < |t.breakSlots|
      ensures n >= 1 ==> BreakStarts(t, n, j)[0] == t.breakSlots[j].lo
      ensures n >= 2 ==> BreakStarts(t, n, j)[n - 1] == t.breakSlots[j].hi
      ensures forall i :: 0 <= i < n - 1 ==> BreakStarts(t, n, j)[i] <= BreakStarts(t, n, j)[i + 1]
    {
      StaggerShape(t.breakSlots[j], n, Hundredths);
    }
    LunchBoundsOnGrid(t);
    StaggerShape(LunchWindow(spread, t), n, Tenths);
  }

  /** With the corrected spread every generated lunch start is one the lunch
      slider offers. */
  lemma GeneratedLunchFitsSlider(t: Template, n: nat)
    requires WellFormed(t)
    ensures forall i :: 0 <= i < n ==>
              LunchBounds(t).lo <= LunchStarts(WithinLunchSlider, t, n)[i] <= LunchBounds(t).hi
  {
    LunchBoundsOnGrid(t);
    StaggerShape(LunchBounds(t), n, Tenths);
  }

  /** As written, with two or more employees the last one's lunch starts at
      the end of the lunch range, past the top of the lunch slider. */
  lemma GeneratedLunchOverrunsSlider(t: Template, n: nat)
    requires WellFormed(t) && n >= 2
    ensures LunchStarts(OverLunchRange, t, n)[n - 1] == t.lunchRange.hi
    ensures LunchStarts(OverLunchRange, t, n)[n - 1] > LunchBounds(t).hi
  {
    StaggerShape(t.lunchRange, n, Tenths);
  }
}

=== FILE: pipeline.dfy ===
/** One pass of the script: generate the table for the headcounts, run the
    adjustment page over it with the user's picks, and draw the chart of
    the adjusted table. The reader, the lunch spread and the slider
    widget's response to an initial value outside its range are
    parameters; the lemmas below are about the corrected reader and spread,
    and the script as written is run in `Findings.AsWrittenRunStops`.
 */
module Pipeline {
  import opened Results
  import opened Clock
  import opened Templates
  import opened Stagger
  import opened Generate
  import opened Adjust
  import opened Timeline

  /** The table the page hands back for the headcounts and the picks. */
  function Adjusted(reader: Reader, spread: LunchSpread, w: Widget, counts: seq<nat>, picks: seq<Picks>): Result<seq<Row>>
    requires |counts| == |Shifts|
  {
    AdjustTable(reader, w, GenerateAll(spread, counts), picks)
  }

  /** Generation, then the page, then the chart. The chart is drawn exactly
      when the page accepts the table and every adjusted row's breaks are
      well formed, and it holds every bar of every adjusted row, in table
      order. */
  function Run(reader: Reader, spread: LunchSpread, w: Widget, counts: seq<nat>, picks: seq<Picks>)
    : (r: Result<seq<Entry>>)
    requires |counts| == |Shifts|
    ensures r.Ok? <==> Adjusted(reader, spread, w, counts, picks).Ok?
                       && AllChart(Adjusted(reader, spread, w, counts, picks).value)
    ensures r.Ok? ==> && AllChart(Adjusted(reader, spread, w, counts, picks).value)
                      && r.value == Flatten(RowBars(Adjusted(reader, spread, w, counts, picks).value))
    ensures r.Ok? ==> WorkTasks(r.value) == Labels(Adjusted(reader, spread, w, counts, picks).value)
    ensures r.Err? ==> || (Adjusted(reader, spread, w, counts, picks).Err?
                           && r.error == Adjusted(reader, spread, w, counts, picks).error)
                       || (Adjusted(reader, spread, w, counts, picks).Ok? && r.error == MalformedBreak)
  {
    var adjusted :- Adjusted(reader, spread, w, counts, picks);
    if AllChart(adjusted) then
      ProjectFlattens(adjusted);
      Project(adjusted)
    else
      Project(adjusted)
  }

  /** With the corrected reader, a second run of the page over the table it
      wrote changes nothing; with a widening widget this needs the picks on
      the minute. */
  lemma AdjustTableIdempotent(w: Widget, rows: seq<Row>, picks: seq<Picks>)
    requires AdjustTable(ClockTime, w, rows, picks).Ok?
    requires w.Widen? ==> forall i :: 0 <= i < |picks| ==> OnTheMinute(picks[i])
    ensures AdjustTable(ClockTime, w, AdjustTable(ClockTime, w, rows, picks).value, picks)
              == AdjustTable(ClockTime, w, rows, picks)
  {
    var out := AdjustTable(ClockTime, w, rows, picks).value;
    forall i | 0 <= i < |rows|
      ensures AdjustRowWith(ClockTime, w, out[i], PicksFor(picks, i)) == Ok(out[i])
    {
      AdjustRowIdempotent(w, rows[i], PicksFor(picks, i));
    }
    var again := AdjustTable(ClockTime, w, out, picks);
    assert again.value == out;
  }

  /** What becomes of a row nobody touches: the page accepts it and keeps
      its start and end texts, and the chart draws it with one lunch bar. */
  predicate ChartsUntouched(w: Widget, row: Row)
  {
    && AdjustRow(w, row, Untouched).Ok?
    && AdjustRow(w, row, Untouched).value.startTime == row.startTime
    && AdjustRow(w, row, Untouched).value.endTime == row.endTime
    && TaskLabel(AdjustRow(w, row, Untouched).value) == TaskLabel(row)
    && RowEntries(AdjustRow(w, row, Untouched).value).Ok?
    && |RowLunch(AdjustRow(w, row, Untouched).value)| == 1
  }

  /** A row the page hands back with only its lunch rewritten as an
      interval, and whose breaks chart, charts untouched. */
  lemma RelunchedRowCharts(w: Widget, row: Row, a: real, b: real)
    requires AdjustRow(w, row, Untouched) == Ok(row.(lunch := Interval(a, b)))
    requires RowBreaks(row).Ok?
    ensures ChartsUntouched(w, row)
  {
    var adjusted := row.(lunch := Interval(a, b));
    assert RowBreaks(adjusted) == RowBreaks(row);
    LunchOfInterval(adjusted, a, b);
  }

  /** A generated row, whose lunch starts at `l`, passes the page
      untouched with only its lunch rewritten, and its breaks chart. */
  lemma GeneratedRowRelunched(w: Widget, t: Template, n: nat, i: nat, row: Row, l: real)
    requires WellFormed(t) && Lookup(t.name) == Some(t) && i < n
    requires row == EmployeeRow(WithinLunchSlider, t, n, i) && l == LunchStarts(WithinLunchSlider, t, n)[i]
    ensures AdjustRow(w, row, Untouched) == Ok(row.(lunch := LunchText(row.shift, l)))
    ensures RowBreaks(row).Ok?
  {
    RowAdjustsUntouched(w, t, n, i, row, l);
    GeneratedRowEntries(WithinLunchSlider, t, n, i);
  }

  /** A generated row of a well-formed template of the table charts
      untouched. */
  lemma RowChartsUntouched(w: Widget, t: Template, n: nat, i: nat, row: Row)
    requires WellFormed(t) && Lookup(t.name) == Some(t) && i < n
    requires row == EmployeeRow(WithinLunchSlider, t, n, i)
    ensures ChartsUntouched(w, row)
  {
    var l := LunchStarts(WithinLunchSlider, t, n)[i];
    GeneratedRowRelunched(w, t, n, i, row, l);
    LunchTextInterval(row.shift, l);
    RelunchedRowCharts(w, row, l, l + LunchDuration(row.shift));
  }

  /** Every generated row charts untouched. */
  lemma GeneratedRowsChart(w: Widget, ts: seq<Template>, counts: seq<nat>)
    requires |counts| == |ts|
    requires forall k :: 0 <= k < |ts| ==> WellFormed(ts[k]) && Lookup(ts[k].name) == Some(ts[k])
    ensures forall j :: 0 <= j < Sum(counts) ==> ChartsUntouched(w, GenerateFor(WithinLunchSlider, ts, counts)[j])
  {
    var blocks := ShiftBlocks(WithinLunchSlider, ts, counts);
    forall k, i | 0 <= k < |blocks| && 0 <= i < |blocks[k]|
      ensures ChartsUntouched(w, blocks[k][i])
    {
      GenerateShiftAt(WithinLunchSlider, ts[k], counts[k], i);
      RowChartsUntouched(w, ts[k], counts[k], i, blocks[k][i]);
    }
    FlattenAll(blocks, row => ChartsUntouched(w, row));
  }

  /** The templates of the table, each well formed and found by its name. */
  lemma ShiftsUsable()
    ensures forall k :: 0 <= k < |Shifts| ==> WellFormed(Shifts[k]) && Lookup(Shifts[k].name) == Some(Shifts[k])
  {
    forall k | 0 <= k < |Shifts|
      ensures WellFormed(Shifts[k]) && Lookup(Shifts[k].name) == Some(Shifts[k])
    {
      LookupFindsEachShift(k);
      LookupWellFormed(Shifts[k].name);
    }
  }

  /** A table of rows that each chart untouched passes the page untouched
      and charts, with the same row labels. */
  lemma UntouchedTableCharts(w: Widget, rows: seq<Row>)
    requires forall j :: 0 <= j < |rows| ==> ChartsUntouched(w, rows[j])
    ensures AdjustTable(ClockTime, w, rows, []).Ok?
    ensures Project(AdjustTable(ClockTime, w, rows, []).value).Ok?
    ensures Labels(AdjustTable(ClockTime, w, rows, []).value) == Labels(rows)
  {
    UntouchedTableAdjusts(w, rows);
    var out := AdjustTable(ClockTime, w, rows, []).value;
    forall i | 0 <= i < |out|
      ensures RowEntries(out[i]).Ok?
      ensures out[i].employee == rows[i].employee && out[i].shift == rows[i].shift
    {
      assert ChartsUntouched(w, rows[i]);
    }
    assert AllChart(out);
    SameLabels(out, rows);
  }

  /** A table of rows the page accepts untouched is accepted, each row
      adjusted as on its own. */
  lemma UntouchedTableAdjusts(w: Widget, rows: seq<Row>)
    requires forall j :: 0 <= j < |rows| ==> AdjustRow(w, rows[j], Untouched).Ok?
    ensures AdjustTable(ClockTime, w, rows, []).Ok?
    ensures forall j :: 0 <= j < |rows| ==> AdjustTable(ClockTime, w, rows, []).value[j] == AdjustRow(w, rows[j], Untouched).value
  {
    assert forall i :: 0 <= i < |rows| ==> PicksFor([], i) == Untouched;
  }

  /** With no slider touched, whatever the headcounts, the page accepts the
      generated table and the chart draws one shift bar per employee, in
      table order. */
  lemma UntouchedRunCharts(w: Widget, counts: seq<nat>)
    requires |counts| == |Shifts|
    ensures Run(ClockTime, WithinLunchSlider, w, counts, []).Ok?
    ensures WorkTasks(Run(ClockTime, WithinLunchSlider, w, counts, []).value) == Labels(GenerateAll(WithinLunchSlider, counts))
    ensures |WorkTasks(Run(ClockTime, WithinLunchSlider, w, counts, []).value)| == Sum(counts)
  {
    ShiftsUsable();
    GeneratedRowsChart(w, Shifts, counts);
    UntouchedTableCharts(w, GenerateAll(WithinLunchSlider, counts));
  }
}

=== FILE: results.dfy ===
/** Failure-compatible wrappers shared by the schedule model.

    `Option` stands for a Python value that may be missing (a dictionary
    lookup, a parse), `Result` for an operation that either produces a value
    or stops with one of the errors the script can raise.
 */
module Results {

  /** The ways an operation of the schedule script can stop. */
  datatype Error =
    | UnknownShift       // `shifts[name]` raises KeyError
    | NotANumber         // `float(text)` raises ValueError
    | OutOfRange         // a slider value outside the slider's bounds
    | MalformedBreak     // `a, b = piece.split(" - ")` raises ValueError

  datatype Option<+T> = None | Some(value: T) {

    /** Turns a missing value into the given error. */
    function ToResult(error: Error): Result<T>
    {
      match this
      case Some(v) => Ok(v)
      case None => Err(error)
    }
  }

  datatype Result<+T> = Ok(value: T) | Err(error: Error) {

    predicate IsFailure() {
      Err?
    }

    function PropagateFailure<U>(): Result<U>
      requires Err?
    {
      Err(error)
    }

    function Extract(): T
      requires Ok?
    {
      value
    }
  }

  /** Runs a sequence of steps in order: all their values if every step
      succeeds, otherwise the error of the first step that fails. */
  function AllOk<T>(rs: seq<Result<T>>): (r: Result<seq<T>>)
    ensures r.Ok? <==> forall i :: 0 <= i < |rs| ==> rs[i].Ok?
    ensures r.Ok? ==> |r.value| == |rs| && forall i :: 0 <= i < |rs| ==> r.value[i] == rs[i].value
    ensures r.Err? ==> exists i :: 0 <= i < |rs| && rs[i] == Err(r.error) && forall j :: 0 <= j < i ==> rs[j].Ok?
  {
    if |rs| == 0 then Ok([])
    else
      var first :- rs[0];
      var rest :- AllOk(rs[1..]);
      Ok([first] + rest)
  }
}

=== FILE: rounding.dfy ===
/** numpy's `round(x, decimals)` on exact reals: scale by a power of ten,
    round to the nearest integer with ties going to the even neighbour, scale
    back. The script rounds to two places (break starts) and to one place
    (lunch starts). Binary floating-point error is not modelled.
 */
module Rounding {

  /** The number of decimal places kept. */
  datatype Places = Tenths | Hundredths

  /** The factor that moves the last kept decimal place to the units. */
  function Scale(p: Places): real
  {
    match p
    case Tenths => 10.0
    case Hundredths => 100.0
  }

  /** numpy's `rint`: the nearest integer, ties to the even one. */
  function RoundHalfEven(y: real): (n: int)
    ensures y - 0.5 <= n as real <= y + 0.5
    ensures (n as real - y == 0.5 || y - n as real == 0.5) ==> n % 2 == 0
  {
    var f := y.Floor;
    var d := y - f as real;
    if d < 0.5 then f
    else if d > 0.5 then f + 1
    else if f % 2 == 0 then f
    else f + 1
  }

  /** `x` is a whole number of units of the last kept decimal place. */
  predicate OnGrid(x: real, p: Places)
  {
    (x * Scale(p)).Floor as real == x * Scale(p)
  }

  /** `round(x, 1)` or `round(x, 2)`: the nearest grid point, ties to the even one. */
  function RoundTo(x: real, p: Places): (r: real)
    ensures OnGrid(r, p)
    ensures x - 0.5 / Scale(p) <= r <= x + 0.5 / Scale(p)
  {
    RoundHalfEven(x * Scale(p)) as real / Scale(p)
  }

  /** Rounding to the nearest integer never reverses an order. */
  lemma RoundHalfEvenMonotone(y: real, z: real)
    requires y <= z
    ensures RoundHalfEven(y) <= RoundHalfEven(z)
  {
    var fy, fz := y.Floor, z.Floor;
    if fy == fz {
      var dy, dz := y - fy as real, z - fz as real;
      assert dy <= dz;
    } else {
      assert fy < fz;
    }
  }

  /** Rounding never reverses an order. */
  lemma RoundToMonotone(x: real, z: real, p: Places)
    requires x <= z
    ensures RoundTo(x, p) <= RoundTo(z, p)
  {
    RoundHalfEvenMonotone(x * Scale(p), z * Scale(p));
  }

  /** A value already on the grid is left as it is. */
  lemma RoundToFixesGrid(x: real, p: Places)
    requires OnGrid(x, p)
    ensures RoundTo(x, p) == x
  {
  }

  /** Rounding stays between two grid points that enclose the value. */
  lemma RoundToBetweenGridPoints(lo: real, x: real, hi: real, p: Places)
    requires OnGrid(lo, p) && OnGrid(hi, p) && lo <= x <= hi
    ensures lo <= RoundTo(x, p) <= hi
  {
    RoundToMonotone(lo, x, p);
    RoundToMonotone(x, hi, p);
    RoundToFixesGrid(lo, p);
    RoundToFixesGrid(hi, p);
  }

  /** A tenth of an hour is six minutes, so rounding to tenths lands on a
      whole minute. */
  lemma TenthsAreWholeMinutes(x: real)
    requires OnGrid(x, Tenths)
    ensures (x * 60.0).Floor as real == x * 60.0
  {
    var y := x * 10.0;
    assert x * 60.0 == y * 6.0;
    assert y == y.Floor as real;
    assert y.Floor as real * 6.0 == (y.Floor * 6) as real;
  }
}

=== FILE: stagger.dfy ===
/** Staggering: the start times of one break slot (or of lunch) for `n`
    employees, spread evenly over the slot with numpy's `linspace` and then
    rounded (`round(b, 2)` for breaks, `round(l, 1)` for lunch).
 */
module Stagger {
  import opened Rounding
  import opened Templates

  /** Element `i` of `numpy.linspace(a, b, n)`: `a + i * step` with
      `step = (b - a) / (n - 1)`, the last element set to `b` exactly, and a
      lone element equal to `a`. */
  function LinspaceAt(a: real, b: real, n: nat, i: nat): real
    requires i < n
  {
    if n == 1 then a
    else if i == n - 1 then b
    else a + (i as real) * ((b - a) / ((n - 1) as real))
  }

  /** `numpy.linspace(a, b, n)` with both endpoints included. */
  function Linspace(a: real, b: real, n: nat): (xs: seq<real>)
    ensures |xs| == n
    ensures n >= 1 ==> xs[0] == a
    ensures n >= 2 ==> xs[n - 1] == b
  {
    seq(n, i requires 0 <= i < n => LinspaceAt(a, b, n, i))
  }

  /** Neighbouring points are one step `(b - a) / (n - 1)` apart, the last
      pair included although the last point is set to `b` directly. */
  lemma LinspaceEvenlySpaced(a: real, b: real, n: nat)
    requires n >= 2
    ensures forall i :: 0 <= i < n - 1 ==> Linspace(a, b, n)[i + 1] - Linspace(a, b, n)[i] == (b - a) / ((n - 1) as real)
  {
    var xs := Linspace(a, b, n);
    var step := (b - a) / ((n - 1) as real);
    forall i | 0 <= i < n - 1
      ensures xs[i + 1] - xs[i] == step
    {
      assert ((n - 1) as real) * step == b - a;
      assert ((i + 1) as real) * step == (i as real) * step + step;
    }
  }

  /** `i` steps of a non-negative size never pass `n - 1` steps when `i < n - 1`. */
  lemma StepsBelowSpan(a: real, b: real, n: nat, i: nat, j: nat)
    requires a <= b && n >= 2 && i <= j < n - 1
    ensures a <= a + (i as real) * ((b - a) / ((n - 1) as real))
    ensures a + (i as real) * ((b - a) / ((n - 1) as real)) <= a + (j as real) * ((b - a) / ((n - 1) as real))
    ensures a + (j as real) * ((b - a) / ((n - 1) as real)) <= b
  {
    var step := (b - a) / ((n - 1) as real);
    assert step >= 0.0;
    assert (i as real) * step <= (j as real) * step;
    assert (j as real) * step <= ((n - 1) as real) * step;
    assert ((n - 1) as real) * step == b - a;
  }

  /** Each point lies between `a` and `b`. */
  lemma LinspaceAtBounds(a: real, b: real, n: nat, i: nat)
    requires a <= b && i < n
    ensures a <= LinspaceAt(a, b, n, i) <= b
  {
    if n >= 2 && i < n - 1 {
      StepsBelowSpan(a, b, n, i, i);
    }
  }

  /** A later point is never below an earlier one. */
  lemma LinspaceAtMonotone(a: real, b: real, n: nat, i: nat, j: nat)
    requires a <= b && i <= j < n
    ensures LinspaceAt(a, b, n, i) <= LinspaceAt(a, b, n, j)
  {
    if n >= 2 && j < n - 1 {
      StepsBelowSpan(a, b, n, i, j);
    } else if n >= 2 {
      LinspaceAtBounds(a, b, n, i);
    }
  }

  /** For `a <= b` the points run from `a` to `b` without ever going back. */
  lemma LinspaceMonotone(a: real, b: real, n: nat)
    requires a <= b
    ensures forall i :: 0 <= i < n ==> a <= Linspace(a, b, n)[i] <= b
    ensures forall i, j :: 0 <= i <= j < n ==> Linspace(a, b, n)[i] <= Linspace(a, b, n)[j]
  {
    var xs := Linspace(a, b, n);
    forall i | 0 <= i < n
      ensures a <= xs[i] <= b
    {
      LinspaceAtBounds(a, b, n, i);
    }
    forall i, j | 0 <= i <= j < n
      ensures xs[i] <= xs[j]
    {
      LinspaceAtMonotone(a, b, n, i, j);
    }
  }

  /** The rounded start times for `n` employees over window `w`. */
  function StaggerStarts(w: Window, n: nat, p: Places): (starts: seq<real>)
    ensures |starts| == n
    ensures forall i :: 0 <= i < n ==> OnGrid(starts[i], p)
    ensures forall i :: 0 <= i < n ==> && Linspace(w.lo, w.hi, n)[i] - 0.5 / Scale(p) <= starts[i]
                                       && starts[i] <= Linspace(w.lo, w.hi, n)[i] + 0.5 / Scale(p)
  {
    var xs := Linspace(w.lo, w.hi, n);
    seq(n, i requires 0 <= i < n => RoundTo(xs[i], p))
  }

  /** For a window whose ends lie on the rounding grid: `n` starts, the first
      at the window's start, the last at its end, never decreasing, all inside
      the window. For `n == 1` the only start is the window's start. */
  lemma StaggerShape(w: Window, n: nat, p: Places)
    requires w.lo <= w.hi && OnGrid(w.lo, p) && OnGrid(w.hi, p)
    ensures n >= 1 ==> StaggerStarts(w, n, p)[0] == w.lo
    ensures n >= 2 ==> StaggerStarts(w, n, p)[n - 1] == w.hi
    ensures forall i :: 0 <= i < n ==> w.lo <= StaggerStarts(w, n, p)[i] <= w.hi
    ensures forall i, j :: 0 <= i <= j < n ==> StaggerStarts(w, n, p)[i] <= StaggerStarts(w, n, p)[j]
  {
    var xs := Linspace(w.lo, w.hi, n);
    var starts := StaggerStarts(w, n, p);
    LinspaceMonotone(w.lo, w.hi, n);
    if n >= 1 {
      RoundToFixesGrid(w.lo, p);
    }
    if n >= 2 {
      RoundToFixesGrid(w.hi, p);
    }
    forall i | 0 <= i < n
      ensures w.lo <= starts[i] <= w.hi
    {
      RoundToBetweenGridPoints(w.lo, xs[i], w.hi, p);
    }
    forall i, j | 0 <= i <= j < n
      ensures starts[i] <= starts[j]
    {
      RoundToMonotone(xs[i], xs[j], p);
    }
  }

  /** The break starts of slot `j` of a template, one per employee. */
  function BreakStarts(t: Template, n: nat, j: nat): (starts: seq<real>)
    requires j < |t.breakSlots|
    ensures |starts| == n
  {
    StaggerStarts(t.breakSlots[j], n, Hundredths)
  }

  /** The window lunch starts are spread over. The script spreads them over
      the whole lunch range (`OverLunchRange`), although the lunch slider
      only offers starts up to the range's end minus the lunch duration;
      `WithinLunchSlider` is the corrected choice that spreads them over the
      slider's range. */
  datatype LunchSpread = OverLunchRange | WithinLunchSlider

  function LunchWindow(spread: LunchSpread, t: Template): Window
  {
    match spread
    case OverLunchRange => t.lunchRange
    case WithinLunchSlider => LunchBounds(t)
  }

  /** The lunch starts of a template, one per employee. */
  function LunchStarts(spread: LunchSpread, t: Template, n: nat): (starts: seq<real>)
    ensures |starts| == n
  {
    StaggerStarts(LunchWindow(spread, t), n, Tenths)
  }
}

=== FILE: templates.dfy ===
/** The fixed table of shift templates (the `shifts` dictionary) and what can
    be read from it: lookup by name, the lunch duration, and the facts that
    make every template usable.
 */
module Templates {
  import opened Results
  import opened Text
  import opened Rounding

  /** A span of hours `[lo, hi]`. */
  datatype Window = Window(lo: real, hi: real)

  /** One shift: its default hours, the range the start and end sliders may
      cover, the windows over which break starts are spread, and the window
      over which lunch starts are spread. */
  datatype Template = Template(
    name: string,
    defaultStart: real,
    defaultEnd: real,
    adjustable: Window,
    breakSlots: seq<Window>,
    lunchRange: Window)

  const TorontoEarly := Template("Toronto (8 AM - 4 PM)", 8.0, 16.0, Window(8.0, 18.0),
                                 [Window(9.5, 9.75), Window(13.5, 13.75)], Window(11.5, 13.0))
  const TorontoLate := Template("Toronto (10 AM - 6 PM)", 10.0, 18.0, Window(8.0, 18.0),
                                [Window(11.0, 11.25), Window(15.0, 15.25)], Window(12.5, 14.0))
  const BogotaEarly := Template("Bogotá (7 AM - 4:30 PM)", 7.0, 16.5, Window(7.0, 18.0),
                                [Window(9.0, 9.5)], Window(11.5, 13.5))
  const BogotaLate := Template("Bogotá (8:30 AM - 6 PM)", 8.5, 18.0, Window(7.0, 18.0),
                               [Window(10.0, 10.5)], Window(12.0, 14.0))

  /** The four shifts, in declaration order (which is also the order the
      sidebar and the generator visit them). */
  const Shifts: seq<Template> := [TorontoEarly, TorontoLate, BogotaEarly, BogotaLate]

  /** The first template of `ts` with the given name. */
  function LookupIn(ts: seq<Template>, name: string): (r: Option<Template>)
    ensures r.Some? ==> r.value.name == name
    decreases |ts|
  {
    if |ts| == 0 then None
    else if ts[0].name == name then Some(ts[0])
    else LookupIn(ts[1..], name)
  }

  /** What is found is one of the templates, and nothing is found exactly
      when no template carries the name. */
  lemma {:induction false} LookupInFinds(ts: seq<Template>, name: string)
    ensures LookupIn(ts, name).Some? ==> LookupIn(ts, name).value in ts
    ensures LookupIn(ts, name).None? <==> forall k :: 0 <= k < |ts| ==> ts[k].name != name
    decreases |ts|
  {
    if |ts| > 0 && ts[0].name != name {
      LookupInFinds(ts[1..], name);
      assert forall k :: 1 <= k < |ts| ==> ts[k] == ts[1..][k - 1];
    }
  }

  /** `shifts[name]`; None where Python raises KeyError. */
  function Lookup(name: string): (r: Option<Template>)
    ensures r.Some? ==> r.value.name == name
  {
    LookupIn(Shifts, name)
  }

  /** Looking a name up finds a template of the table, and fails exactly
      when no template has that name. */
  lemma LookupFinds(name: string)
    ensures Lookup(name).Some? ==> Lookup(name).value in Shifts
    ensures Lookup(name).None? <==> forall k :: 0 <= k < |Shifts| ==> Shifts[k].name != name
  {
    LookupInFinds(Shifts, name);
  }

  /** Lunch lasts half an hour on shifts whose name mentions Toronto and an
      hour on all others. */
  function LunchDuration(shift: string): (d: real)
    ensures d == 0.5 || d == 1.0
  {
    if Contains(shift, "Toronto") then 0.5 else 1.0
  }

  /** The hours a template's start slider covers: `[min_start, max_end - 1]`. */
  function StartBounds(t: Template): Window
  {
    Window(t.adjustable.lo, t.adjustable.hi - 1.0)
  }

  /** The hours a template's lunch slider covers: `[lunch_start, lunch_end - duration]`. */
  function LunchBounds(t: Template): Window
  {
    Window(t.lunchRange.lo, t.lunchRange.hi - LunchDuration(t.name))
  }

  predicate Inside(w: Window, outer: Window)
  {
    outer.lo <= w.lo <= w.hi <= outer.hi
  }

  /** A time of day is a non-negative whole number of minutes. */
  predicate WholeMinutes(x: real)
  {
    0.0 <= x && (x * 60.0).Floor as real == x * 60.0
  }

  /** The hours of a template are usable: its default hours span at least
      an hour inside the adjustable range, and the default start is one the
      start slider offers; the default hours and the adjustable range are
      whole minutes; every break window lies inside the default hours and on
      the grid its starts are rounded to. */
  predicate HoursFit(t: Template)
  {
    var shift := Window(t.defaultStart, t.defaultEnd);
    && t.defaultStart + 1.0 <= t.defaultEnd
    && Inside(shift, t.adjustable)
    && WholeMinutes(t.adjustable.lo) && WholeMinutes(t.adjustable.hi)
    && WholeMinutes(t.defaultStart) && WholeMinutes(t.defaultEnd)
    && StartBounds(t).lo <= t.defaultStart <= StartBounds(t).hi
    && (forall j :: 0 <= j < |t.breakSlots| ==>
          && Inside(t.breakSlots[j], shift)
          && OnGrid(t.breakSlots[j].lo, Hundredths) && OnGrid(t.breakSlots[j].hi, Hundredths))
  }

  /** The lunch of a template is usable: the lunch window lies inside the
      default hours and on the grid lunch starts are rounded to, and the
      lunch slider has a non-empty range. */
  predicate LunchFits(t: Template)
  {
    && Inside(t.lunchRange, Window(t.defaultStart, t.defaultEnd))
    && OnGrid(t.lunchRange.lo, Tenths) && OnGrid(t.lunchRange.hi, Tenths)
    && LunchBounds(t).lo <= LunchBounds(t).hi
  }

  /** What makes a template usable. */
  predicate WellFormed(t: Template)
  {
    HoursFit(t) && LunchFits(t)
  }

  /** Both lunch durations are whole tenths of an hour, so the top of the
      lunch slider stays on the grid lunch starts are rounded to. */
  lemma LunchBoundsOnGrid(t: Template)
    requires OnGrid(t.lunchRange.hi, Tenths)
    ensures OnGrid(LunchBounds(t).hi, Tenths)
  {
    var k := (t.lunchRange.hi * 10.0).Floor;
    var d := LunchDuration(t.name);
    if d == 0.5 {
      assert LunchBounds(t).hi * 10.0 == (k - 5) as real;
    } else {
      assert LunchBounds(t).hi * 10.0 == (k - 10) as real;
    }
  }

  /** `pat` at the very start of `s` is found. */
  lemma ContainsPrefix(s: string, pat: string)
    requires |pat| <= |s| && s[..|pat|] == pat
    ensures Contains(s, pat)
  {
    assert MatchAt(s, pat, 0);
  }

  /** A shift whose name starts with "Toronto" gets half an hour of lunch. */
  lemma TorontoLunch(name: string)
    requires |name| >= 7 && name[..7] == "Toronto"
    ensures LunchDuration(name) == 0.5
  {
    ContainsPrefix(name, "Toronto");
  }

  /** A shift whose name has no 'T' gets an hour of lunch. */
  lemma OtherLunch(name: string)
    requires 'T' !in name
    ensures LunchDuration(name) == 1.0
  {
    NotContainsWithoutHead(name, "Toronto");
  }

  /** The two Toronto shifts get half an hour of lunch, the two Bogotá shifts an hour. */
  lemma LunchDurationOfShifts()
    ensures LunchDuration(TorontoEarly.name) == 0.5
    ensures LunchDuration(TorontoLate.name) == 0.5
    ensures LunchDuration(BogotaEarly.name) == 1.0
    ensures LunchDuration(BogotaLate.name) == 1.0
  {
    TorontoLunch(TorontoEarly.name);
    TorontoLunch(TorontoLate.name);
    OtherLunch(BogotaEarly.name);
    OtherLunch(BogotaLate.name);
  }

  lemma TorontoEarlyHoursFit()
    ensures HoursFit(TorontoEarly)
  {
    assert OnGrid(9.5, Hundredths) && OnGrid(9.75, Hundredths);
    assert OnGrid(13.5, Hundredths) && OnGrid(13.75, Hundredths);
  }

  lemma TorontoEarlyLunchFits()
    ensures LunchFits(TorontoEarly)
  {
  }

  lemma TorontoEarlyWellFormed()
    ensures WellFormed(TorontoEarly)
  {
    TorontoEarlyHoursFit();
    TorontoEarlyLunchFits();
  }

  lemma TorontoLateHoursFit()
    ensures HoursFit(TorontoLate)
  {
    assert OnGrid(11.0, Hundredths) && OnGrid(11.25, Hundredths);
    assert OnGrid(15.0, Hundredths) && OnGrid(15.25, Hundredths);
  }

  lemma TorontoLateLunchFits()
    ensures LunchFits(TorontoLate)
  {
  }

  lemma TorontoLateWellFormed()
    ensures WellFormed(TorontoLate)
  {
    TorontoLateHoursFit();
    TorontoLateLunchFits();
  }

  lemma BogotaEarlyHoursFit()
    ensures HoursFit(BogotaEarly)
  {
    assert OnGrid(9.0, Hundredths) && OnGrid(9.5, Hundredths);
  }

  lemma BogotaEarlyLunchFits()
    ensures LunchFits(BogotaEarly)
  {
  }

  lemma BogotaEarlyWellFormed()
    ensures WellFormed(BogotaEarly)
  {
    BogotaEarlyHoursFit();
    BogotaEarlyLunchFits();
  }

  lemma BogotaLateHoursFit()
    ensures HoursFit(BogotaLate)
  {
    assert OnGrid(10.0, Hundredths) && OnGrid(10.5, Hundredths);
  }

  lemma BogotaLateLunchFits()
    ensures LunchFits(BogotaLate)
  {
  }

  lemma BogotaLateWellFormed()
    ensures WellFormed(BogotaLate)
  {
    BogotaLateHoursFit();
    BogotaLateLunchFits();
  }

  /** Every template of the table is well formed. */
  lemma ShiftsWellFormed()
    ensures forall t :: t in Shifts ==> WellFormed(t)
  {
    TorontoEarlyWellFormed();
    TorontoLateWellFormed();
    BogotaEarlyWellFormed();
    BogotaLateWellFormed();
  }

  /** Every template found by name is well formed. */
  lemma LookupWellFormed(name: string)
    requires Lookup(name).Some?
    ensures WellFormed(Lookup(name).value)
  {
    LookupFinds(name);
    ShiftsWellFormed();
  }

  /** The names are the dictionary's keys, hence pairwise distinct, and
      looking a name up finds its own template. */
  lemma LookupFindsEachShift(k: nat)
    requires k < |Shifts|
    ensures Lookup(Shifts[k].name) == Some(Shifts[k])
  {
    assert TorontoEarly.name[0] == 'T' && BogotaEarly.name[0] == 'B';
    assert TorontoEarly.name[9] == '8' && TorontoLate.name[9] == '1';
    assert BogotaEarly.name[8] == '7' && BogotaLate.name[8] == '8';
    var rest1, rest2, rest3 := Shifts[1..], Shifts[1..][1..], Shifts[1..][1..][1..];
    assert rest1 == [TorontoLate, BogotaEarly, BogotaLate];
    assert rest2 == [BogotaEarly, BogotaLate];
    assert rest3 == [BogotaLate];
    if k == 1 {
      assert LookupIn(rest1, TorontoLate.name) == Some(TorontoLate);
    } else if k == 2 {
      assert LookupIn(rest2, BogotaEarly.name) == Some(BogotaEarly);
      assert LookupIn(rest1, BogotaEarly.name) == Some(BogotaEarly);
    } else if k == 3 {
      assert LookupIn(rest3, BogotaLate.name) == Some(BogotaLate);
      assert LookupIn(rest2, BogotaLate.name) == Some(BogotaLate);
      assert LookupIn(rest1, BogotaLate.name) == Some(BogotaLate);
    }
  }

  /** Looking up the name of any template of the table finds that template. */
  lemma LookupFindsShift(t: Template)
    requires t in Shifts
    ensures Lookup(t.name) == Some(t)
  {
    var k :| 0 <= k < |Shifts| && Shifts[k] == t;
    LookupFindsEachShift(k);
  }
}

=== FILE: text.dfy ===
/** The few Python string operations the schedule script relies on:
    `str(n)`, `f"{n:02d}"`, the integer part of `float(s)`, `s.split(sep)`,
    `sep.join(parts)` and the substring test `pat in s`.
 */
module Text {
  import opened Results

  predicate IsDigit(c: char) {
    '0' <= c <= '9'
  }

  predicate AllDigits(s: string) {
    forall i :: 0 <= i < |s| ==> IsDigit(s[i])
  }

  function DigitValue(c: char): nat
    requires IsDigit(c)
  {
    c as int - '0' as int
  }

  function DigitChar(d: nat): (c: char)
    requires d < 10
    ensures IsDigit(c) && DigitValue(c) == d
  {
    ('0' as int + d) as char
  }

  /** Python's `str(n)` for a non-negative integer: its decimal digits. */
  function NatToString(n: nat): (s: string)
    ensures AllDigits(s)
    ensures n < 10 <==> |s| == 1
    ensures 10 <= n < 100 ==> |s| == 2
    ensures n >= 10 ==> |s| >= 2
    decreases n
  {
    if n < 10 then [DigitChar(n)] else NatToString(n / 10) + [DigitChar(n % 10)]
  }

  /** The number a run of decimal digits denotes, most significant first. */
  function DigitsValue(s: string): nat
    requires AllDigits(s)
    decreases |s|
  {
    if |s| == 0 then 0 else DigitsValue(s[..|s| - 1]) * 10 + DigitValue(s[|s| - 1])
  }

  /** Reading back the digits of `n` gives `n`. */
  lemma {:induction false} DigitsValueOfNatToString(n: nat)
    ensures DigitsValue(NatToString(n)) == n
    decreases n
  {
    if n >= 10 {
      var prefix := NatToString(n / 10);
      var s := prefix + [DigitChar(n % 10)];
      assert s[..|s| - 1] == prefix;
      DigitsValueOfNatToString(n / 10);
    }
  }

  /** `NatToString` never maps two numbers to the same text. */
  lemma NatToStringInjective(a: nat, b: nat)
    requires NatToString(a) == NatToString(b)
    ensures a == b
  {
    DigitsValueOfNatToString(a);
    DigitsValueOfNatToString(b);
  }

  /** The integer `float(s)` yields for an optionally signed run of decimal
      digits, and None (Python's ValueError) for any other text. */
  function ParseInteger(s: string): (r: Option<int>)
    ensures r.Some? ==> |s| >= 1
    ensures AllDigits(s) && |s| >= 1 ==> r == Some(DigitsValue(s) as int)
  {
    if |s| >= 2 && s[0] == '-' && AllDigits(s[1..]) then Some(-(DigitsValue(s[1..]) as int))
    else if |s| >= 2 && s[0] == '+' && AllDigits(s[1..]) then Some(DigitsValue(s[1..]))
    else if |s| >= 1 && AllDigits(s) then Some(DigitsValue(s))
    else None
  }

  /** Python's `f"{n:02d}"`: the decimal form of `n`, zero-padded to two
      characters after the sign; wider numbers keep all their digits. */
  function Pad2(n: int): (s: string)
    ensures |s| >= 2
    ensures n >= 0 ==> AllDigits(s)
    ensures 0 <= n < 100 ==> |s| == 2
    ensures forall i :: 0 <= i < |s| ==> IsDigit(s[i]) || s[i] == '-'
  {
    if n < 0 then "-" + NatToString(-n)
    else if n < 10 then "0" + NatToString(n)
    else NatToString(n)
  }

  /** Parsing a padded number gives the number back; a non-negative one is
      a plain run of its digits. */
  lemma Pad2Reads(n: int)
    ensures ParseInteger(Pad2(n)) == Some(n)
    ensures n >= 0 ==> DigitsValue(Pad2(n)) == n
  {
    var s := Pad2(n);
    if n < 0 {
      assert s[1..] == NatToString(-n);
      DigitsValueOfNatToString(-n);
    } else if n < 10 {
      assert s[..1] == "0";
      assert s[..|s| - 1] == "0";
      assert DigitsValue(s[..1]) == 0;
      DigitsValueOfNatToString(n);
    } else {
      DigitsValueOfNatToString(n);
    }
  }

  /** `pat` occurs in `s` starting at index `j`. */
  predicate MatchAt(s: string, pat: string, j: nat) {
    j + |pat| <= |s| && s[j..j + |pat|] == pat
  }

  /** The first index at or after `k` where `pat` occurs in `s`. */
  function IndexFrom(s: string, pat: string, k: nat): (r: Option<nat>)
    ensures r.Some? ==> k <= r.value && MatchAt(s, pat, r.value)
    ensures r.Some? ==> forall j :: k <= j < r.value ==> !MatchAt(s, pat, j)
    ensures r.None? ==> forall j :: k <= j ==> !MatchAt(s, pat, j)
    decreases |s| - k
  {
    if k + |pat| > |s| then None
    else if s[k..k + |pat|] == pat then Some(k)
    else IndexFrom(s, pat, k + 1)
  }

  /** Python's `s.find(pat)`, with None for -1. */
  function IndexOf(s: string, pat: string): Option<nat>
  {
    IndexFrom(s, pat, 0)
  }

  /** Python's `pat in s`. */
  predicate Contains(s: string, pat: string) {
    IndexOf(s, pat).Some?
  }

  /** A text that lacks the first character of `pat` cannot contain `pat`. */
  lemma NotContainsWithoutHead(s: string, pat: string)
    requires |pat| > 0 && pat[0] !in s
    ensures !Contains(s, pat)
  {
    var r := IndexOf(s, pat);
    if r.Some? {
      assert false;
    }
  }

  /** `pat` is found exactly where a text free of its first character ends
      and `pat` begins. */
  lemma IndexOfAfterPrefix(a: string, pat: string, rest: string)
    requires |pat| > 0 && pat[0] !in a
    ensures IndexOf(a + pat + rest, pat) == Some(|a|)
  {
    var s := a + pat + rest;
    assert s[|a|..|a| + |pat|] == pat;
    assert MatchAt(s, pat, |a|);
    var r := IndexOf(s, pat);
    if r.value < |a| {
      assert false;
    }
  }

  /** A prefix of `s` that ends before the first match of `sep` holds no match. */
  lemma NoMatchInPrefix(s: string, sep: string, i: nat)
    requires |sep| > 0 && i <= |s|
    requires forall j :: 0 <= j < i ==> !MatchAt(s, sep, j)
    ensures !Contains(s[..i], sep)
  {
    var r := IndexOf(s[..i], sep);
    if r.Some? {
      var j := r.value;
      assert s[..i][j..j + |sep|] == s[j..j + |sep|];
      assert MatchAt(s, sep, j);
      assert false;
    }
  }

  /** Python's `s.split(sep)` for a non-empty separator: the pieces between
      successive left-to-right occurrences of `sep`. */
  function Split(s: string, sep: string): (parts: seq<string>)
    requires |sep| > 0
    ensures |parts| >= 1
    ensures Join(parts, sep) == s
    ensures forall k :: 0 <= k < |parts| ==> !Contains(parts[k], sep)
    decreases |s|
  {
    match IndexOf(s, sep)
    case None => [s]
    case Some(i) =>
      NoMatchInPrefix(s, sep, i);
      var rest := Split(s[i + |sep|..], sep);
      assert s == s[..i] + sep + s[i + |sep|..];
      [s[..i]] + rest
  }

  /** `Split` cuts at the leftmost occurrence each time, as `str.split`
      does: after every piece but the last, what is left of the text has its
      first occurrence of `sep` exactly where that piece ends. */
  lemma {:induction false} SplitLeftmost(s: string, sep: string)
    requires |sep| > 0
    ensures forall k :: 0 <= k < |Split(s, sep)| - 1 ==>
              IndexOf(Join(Split(s, sep)[k..], sep), sep) == Some(|Split(s, sep)[k]|)
    decreases |s|
  {
    var parts := Split(s, sep);
    match IndexOf(s, sep)
    case None =>
    case Some(i) =>
      var rest := Split(s[i + |sep|..], sep);
      SplitLeftmost(s[i + |sep|..], sep);
      assert parts == [s[..i]] + rest;
      forall k | 0 <= k < |parts| - 1
        ensures IndexOf(Join(parts[k..], sep), sep) == Some(|parts[k]|)
      {
        if k == 0 {
          assert parts[k..] == parts;
        } else {
          assert parts[k..] == rest[k - 1..];
        }
      }
  }

  /** The pieces `Split` returns are the only ones that join back to the
      text, hold no separator and are cut leftmost. */
  lemma {:induction false} SplitUnique(s: string, sep: string, parts: seq<string>)
    requires |sep| > 0 && |parts| >= 1 && Join(parts, sep) == s
    requires forall k :: 0 <= k < |parts| ==> !Contains(parts[k], sep)
    requires forall k :: 0 <= k < |parts| - 1 ==> IndexOf(Join(parts[k..], sep), sep) == Some(|parts[k]|)
    ensures Split(s, sep) == parts
    decreases |parts|
  {
    if |parts| == 1 {
      assert IndexOf(s, sep).None?;
    } else {
      var i := |parts[0]|;
      var tail := Join(parts[1..], sep);
      assert parts[0..] == parts;
      assert IndexOf(s, sep) == Some(i);
      assert s == parts[0] + sep + tail;
      assert s[..i] == parts[0];
      assert s[i + |sep|..] == tail;
      forall k | 0 <= k < |parts[1..]| - 1
        ensures IndexOf(Join(parts[1..][k..], sep), sep) == Some(|parts[1..][k]|)
      {
        assert parts[1..][k..] == parts[k + 1..];
      }
      SplitUnique(tail, sep, parts[1..]);
      assert parts == [parts[0]] + parts[1..];
    }
  }

  /** Python's `sep.join(parts)`. */
  function Join(parts: seq<string>, sep: string): string
    decreases |parts|
  {
    if |parts| == 0 then ""
    else if |parts| == 1 then parts[0]
    else parts[0] + sep + Join(parts[1..], sep)
  }

  /** The first piece of `s.split(sep)`, i.e. `s.split(sep)[0]`. */
  function FirstPiece(s: string, sep: string): string
    requires |sep| > 0
  {
    Split(s, sep)[0]
  }

  /** Splitting a join gives back the pieces, provided no piece contains the
      separator's first character. */
  lemma {:induction false} SplitJoin(parts: seq<string>, sep: string)
    requires |sep| > 0 && |parts| >= 1
    requires forall k :: 0 <= k < |parts| ==> sep[0] !in parts[k]
    ensures Split(Join(parts, sep), sep) == parts
    decreases |parts|
  {
    if |parts| == 1 {
      NotContainsWithoutHead(parts[0], sep);
    } else {
      assert forall k :: 0 <= k < |parts| - 1 ==> parts[1..][k] == parts[k + 1];
      SplitJoin(parts[1..], sep);
      SplitAfterPiece(parts[0], sep, Join(parts[1..], sep));
      assert parts == [parts[0]] + parts[1..];
    }
  }

  /** Splitting `a + sep + b`, where `a` lacks the separator's first
      character, gives `a` and then the pieces of `b`. */
  lemma SplitAfterPiece(a: string, sep: string, b: string)
    requires |sep| > 0 && sep[0] !in a
    ensures Split(a + sep + b, sep) == [a] + Split(b, sep)
  {
    var s := a + sep + b;
    IndexOfAfterPrefix(a, sep, b);
    assert s[..|a|] == a;
    assert s[|a| + |sep|..] == b;
  }

  /** The first piece of `a + sep + b` is `a` when `a` lacks `sep`'s first character. */
  lemma FirstPieceOfJoin(a: string, sep: string, b: string)
    requires |sep| > 0 && sep[0] !in a
    ensures FirstPiece(a + sep + b, sep) == a
  {
    var s := a + sep + b;
    IndexOfAfterPrefix(a, sep, b);
    assert s[..|a|] == a;
  }

  /** The first piece of a text lacking `sep`'s first character is the whole text. */
  lemma FirstPieceOfPlain(a: string, sep: string)
    requires |sep| > 0 && sep[0] !in a
    ensures FirstPiece(a, sep) == a
  {
    NotContainsWithoutHead(a, sep);
  }
}

=== FILE: timeline.dfy ===
/** The Gantt projection: every row of the adjusted table becomes a bar for
    the shift, one bar per break piece and, once the lunch has been written
    as an interval, a bar for the lunch. The chart parses each clock text
    with `%H:%M`; the model keeps the texts as they are.
 */
module Timeline {
  import opened Results
  import opened Text
  import opened Clock
  import opened Templates
  import opened Stagger
  import opened Generate

  /** What a bar stands for; it decides the chart's Category column (the
      shift name, `"Break"` or `"Lunch"`) and its Type column. */
  datatype Kind = Work(shift: string) | Break | Lunch

  /** One bar: the row it belongs to, the clock texts it starts and finishes
      at, and what it stands for. */
  datatype Entry = Entry(task: string, start: string, finish: string, kind: Kind)

  /** The chart's row label, `"<employee> (<shift>)"`. */
  function TaskLabel(row: Row): string
  {
    row.employee + " (" + row.shift + ")"
  }

  /** One break bar per piece, each piece split on `" - "` into its start
      and end; a piece that does not split into exactly two texts stops the
      page (the unpacking is not guarded). */
  function BreakEntries(task: string, pieces: seq<string>): (r: Result<seq<Entry>>)
    ensures r.Ok? <==> forall k :: 0 <= k < |pieces| ==> |Split(pieces[k], " - ")| == 2
    ensures r.Err? ==> r.error == MalformedBreak
    ensures r.Ok? ==> |r.value| == |pieces|
    ensures r.Ok? ==> forall k :: 0 <= k < |pieces| ==>
              r.value[k] == Entry(task, Split(pieces[k], " - ")[0], Split(pieces[k], " - ")[1], Break)
    decreases |pieces|
  {
    if |pieces| == 0 then Ok([])
    else
      var parts := Split(pieces[0], " - ");
      if |parts| != 2 then Err(MalformedBreak)
      else
        var rest :- BreakEntries(task, pieces[1..]);
        Ok([Entry(task, parts[0], parts[1], Break)] + rest)
  }

  /** The break bars of a row: none for an empty Breaks text, otherwise one
      per `", "`-separated piece. */
  function RowBreaks(row: Row): (r: Result<seq<Entry>>)
    ensures r.Ok? ==> forall k :: 0 <= k < |r.value| ==> r.value[k].task == TaskLabel(row) && r.value[k].kind == Break
    ensures row.breaks == "" ==> r == Ok([])
  {
    if row.breaks == "" then Ok([]) else BreakEntries(TaskLabel(row), Split(row.breaks, ", "))
  }

  /** The lunch bar of a row: one when the Lunch text contains `" - "` and
      splits into a start and an end; none otherwise (a text without the
      separator is skipped, one that splits into more pieces is reported
      and skipped). */
  function RowLunch(row: Row): (r: seq<Entry>)
    ensures |r| <= 1
    ensures |r| == 1 <==> Contains(row.lunch, " - ") && |Split(row.lunch, " - ")| == 2
    ensures forall k :: 0 <= k < |r| ==> r[k].task == TaskLabel(row) && r[k].kind == Lunch
  {
    if Contains(row.lunch, " - ") then
      var parts := Split(row.lunch, " - ");
      if |parts| == 2 then [Entry(TaskLabel(row), parts[0], parts[1], Lunch)] else []
    else []
  }

  /** All bars of a row: the shift first, then its breaks, then its lunch.
      Only a malformed break stops the page. */
  function RowEntries(row: Row): (r: Result<seq<Entry>>)
    ensures r.Ok? <==> RowBreaks(row).Ok?
    ensures r.Ok? ==> RowBreaks(row).Ok? && |r.value| == 1 + |RowBreaks(row).value| + |RowLunch(row)|
    ensures r.Ok? ==> r.value[0] == Entry(TaskLabel(row), row.startTime, row.endTime, Work(row.shift))
    ensures r.Ok? ==> r.value[1..] == RowBreaks(row).value + RowLunch(row)
    ensures r.Ok? ==> forall k :: 1 <= k < |r.value| ==> !r.value[k].kind.Work?
    ensures r.Ok? ==> forall k :: 0 <= k < |r.value| ==> r.value[k].task == TaskLabel(row)
  {
    var breaks :- RowBreaks(row);
    var work := Entry(TaskLabel(row), row.startTime, row.endTime, Work(row.shift));
    assert ([work] + (breaks + RowLunch(row)))[1..] == breaks + RowLunch(row);
    Ok([work] + (breaks + RowLunch(row)))
  }

  /** The labels of the shift bars, in order. */
  function WorkTasks(es: seq<Entry>): seq<string>
    decreases |es|
  {
    if |es| == 0 then []
    else (if es[0].kind.Work? then [es[0].task] else []) + WorkTasks(es[1..])
  }

  /** The chart's row labels of a table, row by row. */
  function Labels(rows: seq<Row>): (ls: seq<string>)
    ensures |ls| == |rows|
    decreases |rows|
  {
    if |rows| == 0 then [] else [TaskLabel(rows[0])] + Labels(rows[1..])
  }

  /** Label `i` is row `i`'s label. */
  lemma {:induction false} LabelsAt(rows: seq<Row>, i: nat)
    requires i < |rows|
    ensures Labels(rows)[i] == TaskLabel(rows[i])
    decreases i
  {
    if i > 0 {
      LabelsAt(rows[1..], i - 1);
      assert rows[1..][i - 1] == rows[i];
    }
  }

  /** Tables whose rows carry the same employees and shifts, row by row,
      have the same labels. */
  lemma {:induction false} SameLabels(a: seq<Row>, b: seq<Row>)
    requires |a| == |b|
    requires forall i :: 0 <= i < |a| ==> a[i].employee == b[i].employee && a[i].shift == b[i].shift
    ensures Labels(a) == Labels(b)
    decreases |a|
  {
    if |a| > 0 {
      assert a[0].employee == b[0].employee && a[0].shift == b[0].shift;
      forall i | 0 <= i < |a| - 1
        ensures a[1..][i].employee == b[1..][i].employee && a[1..][i].shift == b[1..][i].shift
      {
        assert a[1..][i] == a[i + 1] && b[1..][i] == b[i + 1];
      }
      SameLabels(a[1..], b[1..]);
    }
  }

  /** The shift bars of two runs of bars, one after the other. */
  lemma {:induction false} WorkTasksAppend(a: seq<Entry>, b: seq<Entry>)
    ensures WorkTasks(a + b) == WorkTasks(a) + WorkTasks(b)
    decreases |a|
  {
    if |a| == 0 {
      assert a + b == b;
    } else {
      assert (a + b)[0] == a[0];
      assert (a + b)[1..] == a[1..] + b;
      WorkTasksAppend(a[1..], b);
    }
  }

  /** Bars none of which is a shift bar have no shift labels. */
  lemma {:induction false} NoWorkNoTasks(es: seq<Entry>)
    requires forall k :: 0 <= k < |es| ==> !es[k].kind.Work?
    ensures WorkTasks(es) == []
    decreases |es|
  {
    if |es| > 0 {
      NoWorkNoTasks(es[1..]);
    }
  }

  /** A row has exactly one shift bar, labelled with the row. */
  lemma RowWorkTasks(row: Row)
    requires RowEntries(row).Ok?
    ensures WorkTasks(RowEntries(row).value) == [TaskLabel(row)]
  {
    var es := RowEntries(row).value;
    NoWorkNoTasks(es[1..]);
  }

  /** A row gives its bars: its breaks are well formed. */
  predicate Charts(row: Row)
  {
    RowEntries(row).Ok?
  }

  /** Every row of the table gives its bars. */
  predicate AllChart(rows: seq<Row>)
  {
    forall i :: 0 <= i < |rows| ==> Charts(rows[i])
  }

  /** The whole chart, row after row; the first malformed break stops it. */
  function Project(rows: seq<Row>): (r: Result<seq<Entry>>)
    ensures r.Ok? <==> AllChart(rows)
    ensures r.Ok? ==> WorkTasks(r.value) == Labels(rows)
    ensures r.Err? ==> r.error == MalformedBreak
    decreases |rows|
  {
    if |rows| == 0 then Ok([])
    else
      AllChartCons(rows);
      var first :- RowEntries(rows[0]);
      var rest :- Project(rows[1..]);
      LabelsCons(rows, first, rest);
      Ok(first + rest)
  }

  /** The bars of each row of a table whose rows all chart. */
  function RowBars(rows: seq<Row>): (bars: seq<seq<Entry>>)
    requires AllChart(rows)
    ensures |bars| == |rows|
    ensures forall i :: 0 <= i < |rows| ==> RowEntries(rows[i]) == Ok(bars[i])
  {
    seq(|rows|, i requires 0 <= i < |rows| => RowEntries(rows[i]).value)
  }

  /** The chart holds every bar of every row and nothing else: row after
      row, its shift bar, its break bars and its lunch bar. */
  lemma {:induction false} ProjectFlattens(rows: seq<Row>)
    requires AllChart(rows)
    ensures Project(rows) == Ok(Flatten(RowBars(rows)))
    decreases |rows|
  {
    if |rows| > 0 {
      AllChartCons(rows);
      ProjectFlattens(rows[1..]);
      assert RowBars(rows)[1..] == RowBars(rows[1..]);
    }
  }

  /** A table charts when its first row does and the rest of it does. */
  lemma AllChartCons(rows: seq<Row>)
    requires |rows| > 0
    ensures AllChart(rows) <==> Charts(rows[0]) && AllChart(rows[1..])
  {
    AllCons(rows, Charts);
  }

  /** Every element of a non-empty sequence has a property exactly when its
      first element and every element of the rest have it. */
  lemma AllCons<T>(xs: seq<T>, p: T -> bool)
    requires |xs| > 0
    ensures (forall i :: 0 <= i < |xs| ==> p(xs[i])) <==> p(xs[0]) && forall i :: 0 <= i < |xs[1..]| ==> p(xs[1..][i])
  {
    if p(xs[0]) && forall i :: 0 <= i < |xs[1..]| ==> p(xs[1..][i]) {
      forall i | 0 <= i < |xs|
        ensures p(xs[i])
      {
        if i > 0 {
          assert xs[i] == xs[1..][i - 1];
        }
      }
    }
  }

  /** The shift bars of a first row's bars followed by the rest of the
      chart are the labels of the whole table. */
  lemma LabelsCons(rows: seq<Row>, first: seq<Entry>, rest: seq<Entry>)
    requires |rows| > 0 && RowEntries(rows[0]) == Ok(first)
    requires WorkTasks(rest) == Labels(rows[1..])
    ensures WorkTasks(first + rest) == Labels(rows)
  {
    RowWorkTasks(rows[0]);
    WorkTasksAppend(first, rest);
  }

  /** A lunch written as an interval gives one lunch bar from its start to
      its end. */
  lemma LunchOfInterval(row: Row, a: real, b: real)
    requires row.lunch == Interval(a, b)
    ensures RowLunch(row) == [Entry(TaskLabel(row), FormatTime(a), FormatTime(b), Lunch)]
  {
    Generate.SplitInterval(a, b);
  }

  /** A lunch written as a bare clock text, as generation leaves it, gives
      no lunch bar. */
  lemma LunchOfClockText(row: Row, x: real)
    requires row.lunch == FormatTime(x)
    ensures RowLunch(row) == []
  {
    FormatTimeHasNoSeparator(x);
    NotContainsWithoutHead(row.lunch, " - ");
  }

  /** A generated row gives its shift bar, one bar per break slot from the
      staggered start to half an hour later, and no lunch bar. */
  lemma GeneratedRowEntries(spread: LunchSpread, t: Template, n: nat, i: nat)
    requires i < n
    ensures RowEntries(EmployeeRow(spread, t, n, i)).Ok?
    ensures |RowEntries(EmployeeRow(spread, t, n, i)).value| == 1 + |t.breakSlots|
    ensures forall j :: 0 <= j < |t.breakSlots| ==>
              RowEntries(EmployeeRow(spread, t, n, i)).value[1 + j]
                == Entry(TaskLabel(EmployeeRow(spread, t, n, i)), FormatTime(BreakTimes(t, n, i)[j]),
                         FormatTime(BreakEnd(BreakTimes(t, n, i)[j])), Break)
  {
    var row := EmployeeRow(spread, t, n, i);
    var starts := BreakTimes(t, n, i);
    assert row.breaks == Join(Intervals(starts), ", ") && |starts| == |t.breakSlots|;
    LunchOfClockText(row, LunchStarts(spread, t, n)[i]);
    RowOfBreaksEntries(row, starts);
  }

  /** A row without a lunch bar whose Breaks text joins half-hour intervals
      gives its shift bar and one bar per interval, in order. */
  lemma RowOfBreaksEntries(row: Row, starts: seq<real>)
    requires row.breaks == Join(Intervals(starts), ", ") && RowLunch(row) == []
    ensures RowEntries(row).Ok? && |RowEntries(row).value| == 1 + |starts|
    ensures forall j :: 0 <= j < |starts| ==>
              RowEntries(row).value[1 + j]
                == Entry(TaskLabel(row), FormatTime(starts[j]), FormatTime(BreakEnd(starts[j])), Break)
  {
    if |starts| == 0 {
      assert row.breaks == "";
      EntriesWithoutLunch(row);
    } else {
      IntervalBreaks(row, starts);
      EntriesWithoutLunch(row);
      forall j | 0 <= j < |starts|
        ensures RowEntries(row).value[1 + j]
                  == Entry(TaskLabel(row), FormatTime(starts[j]), FormatTime(BreakEnd(starts[j])), Break)
      {
        BreakEntryAfterWork(row, starts, j);
      }
    }
  }

  /** A row without a lunch bar gives its shift bar and then its break bars. */
  lemma EntriesWithoutLunch(row: Row)
    requires RowBreaks(row).Ok? && RowLunch(row) == []
    ensures RowEntries(row).Ok? && |RowEntries(row).value| == 1 + |RowBreaks(row).value|
  {
  }

  /** Break bar `j` of a row without a lunch bar comes right after its shift
      bar and the `j` break bars before it. */
  lemma EntryAfterWork(row: Row, j: nat)
    requires RowBreaks(row).Ok? && RowLunch(row) == [] && j < |RowBreaks(row).value|
    ensures RowEntries(row).Ok? && RowEntries(row).value[1 + j] == RowBreaks(row).value[j]
  {
  }

  /** Break bar `j` of a row without a lunch bar whose Breaks text joins
      half-hour intervals runs from start `j` to half an hour later. */
  lemma BreakEntryAfterWork(row: Row, starts: seq<real>, j: nat)
    requires |starts| >= 1 && row.breaks == Join(Intervals(starts), ", ")
    requires RowLunch(row) == [] && j < |starts|
    ensures RowEntries(row).Ok? && |RowEntries(row).value| == 1 + |starts|
    ensures RowEntries(row).value[1 + j] == Entry(TaskLabel(row), FormatTime(starts[j]), FormatTime(BreakEnd(starts[j])), Break)
  {
    IntervalBreaks(row, starts);
    EntriesWithoutLunch(row);
    EntryAfterWork(row, j);
  }

  /** A row whose Breaks text joins half-hour intervals from the given
      starts has one break bar per start, from that start to half an hour
      later. */
  lemma IntervalBreaks(row: Row, starts: seq<real>)
    requires |starts| >= 1 && row.breaks == Join(Intervals(starts), ", ")
    ensures RowBreaks(row).Ok?
    ensures |RowBreaks(row).value| == |starts|
    ensures forall j :: 0 <= j < |starts| ==>
              RowBreaks(row).value[j]
                == Entry(TaskLabel(row), FormatTime(starts[j]), FormatTime(BreakEnd(starts[j])), Break)
  {
    IntervalsRoundTrip(starts);
    IntervalHasNoComma(starts[0], BreakEnd(starts[0]));
    assert row.breaks != "";
  }
}
